=== FILE: README.md ===
# gdbtable schema decoder, modelled in Dafny

This project models the schema-header decoder of goRasterRescue, a Go tool that
reads Esri File Geodatabase tables. A table is a pair of files:

- `.gdbtablx` is the row-offset index. Its header gives a block count, a feature
  count and the width of a row offset.
- `.gdbtable` holds the field section. This is a count of field descriptors and
  then the descriptors themselves. Each descriptor has a name, an alias, a
  one-byte type tag and a body whose layout depends on the tag.

The model covers the parts of the decoder that interpret bytes:

- the little-endian primitive readers, the varint reader and the wide-string
  reader (`Cursor`);
- the spatial-reference block and extent of geometry and raster columns, and
  the trailing datum loop of a geometry column (`SpatialRef`);
- one decoder per branch of the type switch, plus the switch itself (`Fields`);
- `newBaseTable`, which reads both headers and then every descriptor. It keeps
  the non-ObjectID fields and counts the nullable ones (`Table`);
- the per-row null mask, which `getFlags` reads and `skipField` tests (`NullMask`);
- the raster band signature tables (`Bands`).

A file is an immutable byte sequence, and a cursor is a natural number that may
point past the end. Go's `Seek` succeeds beyond end-of-file, and only the next
read fails. A seek before the start of the file or past the largest `int64`
offset fails instead; the source ignores that error, so the position stays
where it was. Every read of `n > 0` bytes fails exactly when fewer than `n` bytes
remain. The Go code panics on a short read, a failed `assert`, an index out of
range and an unrecognised band signature. Each of these becomes `Fail(error)`
with an error kind (`Results.Error`), and `:-` propagates it.

The model has three kinds of partner definitions:

- Encoders: `EncodeU32`, `EncodeVarUint` and `EncodeName` for the primitives,
  and `EncodeHead`, `EncodeNumericBody` and `EncodeStringBody` for descriptors
  without spatial data (`FieldEncoding`). Each has round-trip lemmas against
  the decoders.
- Layout predicates: `ReferenceLayout`, `ExtentLayout`, `GeometryAt`,
  `ShapeLayout`, `RasterBlockAt` and `NullabilityRule`. Each states where every
  decoded value lies in the bytes.
- List functions: `Listed` and `CountNullable` describe what the descriptor loop
  accumulates.

## Model

| member | source | states |
|---|---|---|
| `Cursor.ReadBytes` | main.go:221-227 | A read of `n` bytes succeeds iff `n` is 0 or `n` bytes remain. It returns exactly those bytes and advances by `n`. |
| `Cursor.ReadByte` | main.go:213-219 | Succeeds iff a byte remains. Returns the byte at the cursor and advances by one. |
| `Cursor.ReadU32` | main.go:205-211 | Succeeds iff 4 bytes remain. Returns b0 + 2^8·b1 + 2^16·b2 + 2^24·b3, the little-endian value of the 4 bytes, which is below 2^32, and advances by 4. |
| `Cursor.ReadU32RoundTrip` | main.go:205-211 | Reading the 4-byte little-endian encoding of any 32-bit value gives that value back and consumes 4 bytes. |
| `Cursor.ReadU32Encodes` | main.go:205-211 | Conversely, any 4 bytes are the encoding of the value `readU32` reads from them. |
| `Cursor.ToSigned` | main.go:229-245 | The Go conversion of an unsigned word to a signed one. The result is in the signed range, congruent to the input, and non-negative iff the input is below half the modulus. |
| `Cursor.ReadInt16` | main.go:229-236 | Succeeds iff 2 bytes remain. Returns a value in [-2^15, 2^15) that is congruent mod 2^16 to the little-endian word, and advances by 2. |
| `Cursor.ReadInt32` | main.go:238-245 | Succeeds iff 4 bytes remain. Returns a value in [-2^31, 2^31) that is congruent mod 2^32 to the `readU32` word, and advances by 4. |
| `Cursor.ReadFloat32Bits` | main.go:247-254 | Succeeds iff 4 bytes remain. Returns the 32-bit little-endian pattern of those bytes and advances by 4. |
| `Cursor.ReadFloat64Bits` | main.go:256-263 | Succeeds iff 8 bytes remain. Returns the 64-bit little-endian pattern of those bytes and advances by 8. |
| `Cursor.SeekCurCompose` | main.go:426-427 | Two relative seeks whose targets are both valid offsets (0 to 2^63 - 1) land where one seek by the sum of their distances lands. |
| `Cursor.SeekCurRewind` | main.go:405-407 | After `n` bytes are read, `Seek(-n, 1)` returns to where the read started, as the datum loop does with its 5-byte probe. A seek by zero never moves. |
| `Cursor.SeekNear` | main.go:438 | A seek of at most 8 bytes, such as the one skipping a Raster body's first byte, always reaches its target when it starts inside the file or lands inside it. |
| `Cursor.VarUintFrom` | main.go:265-277 | The read stops at the first byte whose high bit is clear, and every earlier byte has it set. The value is the sum of the low 7 bits of each byte times 128^i. It fails iff every remaining byte has the high bit set. |
| `Cursor.ReadVarUint` | main.go:265-277 | Stops where `VarUintFrom` stops. The value is that sum reduced mod 2^64, because of the `uint64` accumulator. |
| `Cursor.ReadVarUintSingleByte` | main.go:268-275 | A byte below 0x80 decodes to itself and consumes one byte. |
| `Cursor.VarUintLast` | main.go:270-273 | A byte with the high bit clear ends the read and contributes its low 7 bits. |
| `Cursor.VarUintStep` | main.go:268-275 | A continuing byte puts its 7 bits below whatever the following bytes decode to. |
| `Cursor.VarUintRoundTrip` | main.go:265-277 | Decoding the canonical varint encoding of any `v` gives `v` and stops right after the encoding, whatever follows. |
| `Cursor.ReadVarUintRoundTrip` | main.go:265-277 | For `v < 2^64`, `readVarUint` inverts the encoding. |
| `Cursor.WideChars` | main.go:287-291 | `n` units read as `n` characters, character `j` being the byte at `pos + 2j`. The cursor advances by `2n`, and only `2n - 1` bytes must exist, because the final skip is a seek. A non-positive count reads nothing. |
| `Cursor.GetString` | main.go:279-293 | With `nb = -1`, the count byte comes first and the string has that many characters, spanning `1 + 2·count` bytes. With `nb >= 0`, `nb` is the count. A negative `nb` other than -1 gives the empty string. |
| `Cursor.WideCharsRoundTrip` | main.go:287-291 | Characters stored one per 2-byte unit read back as themselves. |
| `Cursor.GetStringRoundTrip` | main.go:279-293 | A count-prefixed name reads back as itself and consumes `1 + 2·length` bytes. |
| `SpatialRef.ZMFromMagic` | main.go:365-376 | The geometry-kind byte gives Z iff it is 5 or 7, and M iff it is 7. |
| `SpatialRef.ReadOptional` | main.go:381-383 | A value the block carries is read as a word. A value it does not carry is zero and takes no bytes. |
| `SpatialRef.ReadPair` | main.go:381-389 | An origin and a scale are both read or both zero, taking 16 bytes or none. |
| `SpatialRef.ReadReference` | main.go:378-396 | Succeeds iff `8·(4 + 3M + 3Z)` bytes remain, and consumes exactly that many. The values lie in the order X origin, Y origin, X/Y scale, M pair, Z pair, X/Y tolerance, M tolerance, Z tolerance (`ReferenceLayout`). |
| `SpatialRef.ReadExtent` | main.go:398-401 | Succeeds iff 32 bytes remain. The bounding box is the four words in the order xmin, ymin, xmax, ymax. |
| `SpatialRef.ShapeTrailerAsWritten` | main.go:403-415 | The datum loop as written never leaves the outer loop except through a short read, so it fails on every input. |
| `SpatialRef.ReadDatums` | main.go:410-413 | The inner loop of the corrected trailer (`ShapeTrailer`), which reads the marker's full count of datum values rather than stopping after one as the `break` does. `count` values take `8·count` bytes, and the read fails iff they are missing. |
| `SpatialRef.ShapeTrailer` | main.go:403-415 | The corrected loop ends at the first marker on the 8-byte grid, after the number of datum values that the marker's count byte gives. |
| `SpatialRef.ShapeTrailerSkip` | main.go:406-408 | A window that is not the marker is rewound and costs one 8-byte datum value. |
| `SpatialRef.ShapeTrailerStop` | main.go:409-413 | The marker ends the corrected loop after its own datum values. |
| `SpatialRef.ShapeTrailerStopsAtFirstMarker` | main.go:403-415 | Conversely, whenever the first marker is `k` steps in and its datum values are present, the corrected loop returns `k` and stops after those values. |
| `SpatialRef.ShapeTrailerExample` | main.go:403-415 | On a marker followed by one datum, the corrected loop stops after 13 bytes and the loop as written fails. |
| `Fields.DecodeObjectId` | main.go:351-354 | The ObjectID body is two bytes. It succeeds iff they exist, and the field is not nullable. |
| `Fields.ShapeText` | main.go:357-363 | A Shape body starts with a reserved byte, the flag byte, the WKT byte length `L` and `L/2` characters. Character `j` of the WKT is the byte at `pos + 3 + 2j` (`WideAt`). The WKT ends at `WktEnd`. It succeeds iff the three leading bytes exist and the WKT, when non-empty, fits in the file. |
| `Fields.ShapeGeometry` | main.go:365-415 | After the WKT comes the geometry-kind byte, the reference block it selects, the 4-word extent and the trailer, each starting where the previous one ends (`GeometryAt`). |
| `Fields.ShapeGeometrySucceeds` | main.go:365-415 | The geometry decodes iff the kind byte, the reference block it selects and the 4-word extent fit in the file and the trailer after them decodes. |
| `Fields.DecodeShape` | main.go:356-415 | A Shape field is nullable iff bit 0 of its flag byte is set. Its parts lie as `ShapeLayout` says, WKT characters included. |
| `Fields.DecodeShapeSucceeds` | main.go:356-415 | A Shape body decodes iff `ShapeText` succeeds and `ShapeGeometry` succeeds where the WKT ends. |
| `Fields.DecodeShapeAsWritten` | main.go:356-415 | With the datum loop as written, decoding a Shape body fails on every input. |
| `Fields.DecodeString` | main.go:417-428 | Succeeds iff the 4-byte width, the flag byte and a complete varint exist. Nullable iff flag bit 0 is set. The default value is skipped only when flag bit 2 is set and the length is nonzero, by a seek of the length read as a signed 64-bit integer. |
| `Fields.StringBodyLength` | main.go:417-428 | For a default length below 2^63 whose seek target does not pass 2^63 - 1, the body is 5 bytes, then the varint, then the default value when the flag announces one. |
| `Fields.DecodeReserved` | main.go:430-435 | A tag-8 body is one skipped byte and the flag byte. It succeeds iff both exist, and the field is nullable iff flag bit 0 is set. |
| `Fields.RasterText` | main.go:443-448 | A Raster body holds a count-prefixed column name and then a WKT of `L/2` characters. Character `j` of each is the byte at `2j` past its count byte (`WideAt`). It succeeds iff both count bytes exist and the WKT, when non-empty, fits in the file. |
| `Fields.RasterReference` | main.go:450-483 | When the raster-kind byte is zero, there is no block and every reference value is zero. Otherwise the block is read as for Shape. It succeeds iff the kind byte exists and, when it is nonzero, its whole block fits in the file. |
| `Fields.RasterPayload` | main.go:443-483 | The column name and the WKT are the ones `RasterText` reads. The kind byte follows the WKT, and the block and the final skipped byte lie as `RasterBlockAt` says. It succeeds iff `RasterText` succeeds and `RasterReference` succeeds where the WKT ends. |
| `Fields.DecodeRaster` | main.go:437-485 | A Raster field is nullable iff flag bit 0 is set. The column name and the WKT, characters included, are those `RasterText` reads from the byte after the flag. One byte is skipped after the block, or after the kind byte when there is no block (`RasterBlockAt`). It succeeds iff the skipped byte and the flag exist and `RasterPayload` succeeds after them. |
| `Fields.DecodeWidthAndFlag` | main.go:487-492 | A body for tag 10, 11 or 12 is a width byte and a flag byte. |
| `Fields.NumericDefault` | main.go:504-518 | A default value of length `len` always advances by `len`. The read fails only for a typed default that is truncated. |
| `Fields.DecodeNumeric` | main.go:494-518 | Every other tag has a body of 3 bytes, plus the default's length when flag bit 2 is set. Nullable iff flag bit 0 is set. |
| `Fields.DecodeBody` | main.go:349-519 | For every tag, the flag byte exists and the field is nullable iff it is not an ObjectID and bit 0 of the flag byte is set. Only tag 7 carries Shape data, and only tag 9 carries Raster data. |
| `Fields.DecodeHead` | main.go:341-343 | A descriptor starts with a count-prefixed name, a count-prefixed alias and the type tag, at the offsets the counts give. Characters are included (`WideAt`): character `j` of each string is the low byte of its `j`-th 2-byte unit, so a unit's high byte is dropped. |
| `Fields.DecodeField` | main.go:339-519 | A descriptor keeps the head's name, alias and tag, and its nullability follows the flag byte of its body. |
| `Fields.FixedWidthBodies` | main.go:349-492 | Bodies of tags 6, 8, 10, 11 and 12 succeed iff 2 bytes remain, and take exactly 2. |
| `FieldEncoding.NameRoundTrip` | main.go:341-342 | An encoded name followed by any bytes reads back as itself, and the following bytes start right after it. |
| `FieldEncoding.DecodeHeadRoundTrip` | main.go:341-343 | An encoded name, alias and tag decode back to themselves, ending right after the tag. |
| `FieldEncoding.TwoByteFieldRoundTrip` | main.go:339-492 | A descriptor of tag 6, 8, 10, 11 or 12 decodes back with its name, alias and tag. It is nullable iff it is not an ObjectID and flag bit 0 is set, and it ends 2 bytes after the tag. |
| `FieldEncoding.NumericBodyRoundTrip` | main.go:494-518 | A numeric body decodes with nullability from flag bit 0. It consumes the default value iff flag bit 2 is set, whatever the tag and length. |
| `FieldEncoding.StringBodyRoundTrip` | main.go:417-428 | A String body with a default shorter than 2^63 bytes decodes with nullability from flag bit 0. It skips the default value iff flag bit 2 is set. |
| `Table.ReadIndexHeader` | main.go:302-311 | Succeeds iff 16 bytes exist and it is not the case that there are zero blocks and a nonzero feature count. That case fails as an invariant violation. Otherwise the three words at offsets 4, 8 and 12 are returned. |
| `Table.ReadFieldCount` | main.go:317-331 | Succeeds iff the header offset word and the 14 bytes at that offset exist. The field count is `b0 + 256·b1` from bytes 12 and 13 past the offset. |
| `Table.RepeatFailurePersists` | main.go:337-529 | Once one descriptor fails to decode, the whole field loop fails. |
| `Table.RepeatStep` | main.go:337-529 | Each loop iteration extends the decoded run by one descriptor, starting where the previous one stopped. |
| `Table.RepeatPrefix` | main.go:337-529 | Every prefix of a successful run of decodes is itself a successful run. |
| `Table.ListedIsFilter` | main.go:526-528 | The listed fields are exactly the non-ObjectID descriptors. |
| `Table.ListedAppend` | main.go:526-528 | Each descriptor is appended to the list unless it is an ObjectID. |
| `Table.CountNullableAppend` | main.go:521-524 | Each nullable descriptor adds one to the count. |
| `Table.CountNullableListed` | main.go:521-528 | Since ObjectIDs are never nullable, dropping them keeps the nullable count. |
| `Table.DecodeFieldObjectIds` | main.go:351-354 | A decoded ObjectID descriptor is never nullable. |
| `Table.ScanFields` | main.go:337-529 | For any descriptor decoder that never yields a nullable ObjectID, the loop succeeds iff every descriptor decodes. It keeps the non-ObjectID descriptors in order, counts the nullable ones, and sets `hasFlags` iff that count is positive. |
| `Table.NewBaseTable` | main.go:295-543 | Succeeds iff both headers and every descriptor decode. The fields are the non-ObjectID descriptors in order. The nullable count is the number of nullable descriptors, equal to the number of nullable listed fields. `hasFlags` holds iff that count is positive. The mask starts empty. The feature count and offset width come from the index header. |
| `NullMask.FlagByteCount` | main.go:78-83 | The mask takes the fewest whole bytes that hold one bit per nullable field, `ceil(n/8)`. |
| `NullMask.GetFlags` | main.go:76-85 | With nullable fields, `ceil(n/8)` bytes are read and appended to the mask. Otherwise nothing is read. It fails iff those bytes are missing. |
| `NullMask.FlagBitsIndex` | main.go:89 | Bit `i` of the mask as a bit string is `(flags[i >> 3] / 2^(i % 8)) % 2`, the bit `1 << (i % 8)` picks out. |
| `NullMask.SkipField` | main.go:87-94 | Only a nullable field of a table with a mask can be skipped, and then exactly when its bit is set. An index past the mask fails. The caller's index is a value parameter and stays unchanged. |
| `NullMask.SkipFieldIgnoresLaterBytes` | main.go:76-94 | Bytes appended to the mask later never change the answer for a bit that is already read. |
| `NullMask.SkipFieldExample` | main.go:87-94 | With mask byte 0b101, fields 0 and 2 are skipped, field 1 is not, index 8 fails, and a non-nullable field is never skipped. |
| `Bands.DataTypeOf` | main.go:125-151 | A data type is returned only when bytes 2 and 3 equal its pattern. On a 4-byte signature, failure means no pattern matches. A signature too short for a byte some case reads fails as too short. |
| `Bands.CompressionOf` | main.go:153-167 | A compression is returned only when byte 1 equals its pattern, and failure means no pattern matches. |
| `Bands.DataTypePatternsDistinct` | main.go:127-146 | No two data types share a pattern. |
| `Bands.CompressionPatternsDistinct` | main.go:155-162 | No two compressions share a pattern. |
| `Bands.DataTypeOfPattern` | main.go:125-151 | Every data type is recognised from its pattern, whatever the other bytes are. |
| `Bands.CompressionOfPattern` | main.go:153-167 | Every compression is recognised from its pattern. |
| `Bands.DataTypeOfLocal` | main.go:125-151 | The data type depends on bytes 2 and 3 only. |
| `Bands.CompressionOfLocal` | main.go:153-167 | The compression depends on byte 1 only. |
| `Bands.SignatureExamples` | main.go:155-162 | `_ 00 02 01` is an uncompressed float32 band, and `_ 0C 81 00` is a jpeg2000 int16 band. |

## Left out

- Opening and closing files, building their paths, and `check` on I/O errors. The two files are given as byte sequences.
- The `fmt.Printf` diagnostics.
- `main`, `newMasterTable` (an empty stub) and the record types that no modelled function fills.
- IEEE-754 decoding. Floats are kept as their raw little-endian bit patterns, because the decoder only stores or discards them.
- The distinction between a panic and an error value. Every panic, failed `assert` and out-of-range index becomes `Fail` with an error kind.
- The varint reader's `uint64` shift counter, which would wrap only after more than 2^61 bytes. The value itself is exact: the 7-bit groups never overlap, so Go's shifted OR, which drops bits at 64 and above, equals the unbounded sum mod 2^64.
- Only the low byte of each 2-byte name unit is kept, as `getString` does (main.go:288-291). A character above U+00FF therefore loses its high byte. This is why the round-trip lemmas for names are stated for names whose characters fit in one byte (`NameFits`).
- `NullMask.SkipField`: the source increments its index parameter after the test (main.go:90). That is a change to a local copy, so the model returns only the answer.
- An unrecognised type tag is not rejected as unsupported. The code decodes it by the default numeric branch (main.go:494-518), and the model follows the code.
- `Table.NewBaseTable`: the index header and the field count are read as `newBaseTable` reads them. The `numFeatures`, `headerLen` and `layGeomType` words are read and then discarded, so only their presence matters. The model does not return them.
- Files of 2^62 bytes or more. Such files are far beyond any filesystem's limits; the bound lets a seek of a few bytes from inside a file always succeed. Smaller filesystem-specific limits on offsets are not modelled either.
- `Fields.DecodeShape`: it uses the corrected datum loop (`SpatialRef.ShapeTrailer`). So it succeeds on well-formed Shape descriptors (`Fields.DecodeShapeSucceeds`), where the loop as written (main.go:403-415) always ends in a panic. `Fields.DecodeShapeAsWritten` models the code as written. See "Findings".
- `Fields.ShapeGeometry`: it uses the corrected datum loop too. `GeometryAt` states the trailer as the corrected loop reads it.
- `Fields.DecodeBody`: tag 7 goes through `Fields.DecodeShape`, so it succeeds on Shape bodies, where the source as written panics.
- `Fields.DecodeField`: a tag-7 descriptor decodes through `Fields.DecodeShape`, so it succeeds where the source as written panics.
- `Table.NewBaseTable`: the field loop decodes tag 7 through `Fields.DecodeShape`, so it succeeds on tables with a Shape column, where the source as written panics while reading the schema.
- `getFlags` is defined but never called in the source. It is modelled on its own, with no caller that reads a row.

## Findings

| source | as written | input that shows it | evidently intended | confidence | as-written member | corrected member |
|---|---|---|---|---|---|---|
| main.go:403-415 | On the 5-byte marker, the inner `for` reads one datum and its `break` leaves only that inner loop. The outer `for {}` then continues until a read panics. | Any Shape descriptor, e.g. the trailer bytes `00 01 00 00 00`, one 8-byte datum, then anything. | Read the number of datum values that the marker's count byte gives, then leave the outer loop. | not executed | `SpatialRef.ShapeTrailerAsWritten` | `SpatialRef.ShapeTrailer` |

`Fields.DecodeShape` uses the corrected loop, and `Fields.DecodeShapeAsWritten` shows that the Shape decoder as written fails on every input. `SpatialRef.ShapeTrailerExample` shows both loops on the same bytes.

=== FILE: bands.dfy ===
/** Raster band signatures (main.go:125-167): bytes 2 and 3 of a band's
    type signature name its pixel data type, byte 1 its compression. Each
    lookup is a switch over fixed byte patterns that aborts on no match. */
module Bands {
  import opened Results
  import opened Cursor

  datatype DataType = Bit1 | Bit4 | Int8 | UInt8 | Int16 | UInt16 | Int32 | Float32 | UInt32 | Bit64

  datatype Compression = Uncompressed | Lz77 | Jpeg | Jpeg2000

  /** The name the source returns for each data type. */
  function DataTypeName(t: DataType): string
  {
    match t
    case Bit1 => "1bit"
    case Bit4 => "4bit"
    case Int8 => "int8"
    case UInt8 => "uint8"
    case Int16 => "int16"
    case UInt16 => "uint16"
    case Int32 => "int32"
    case Float32 => "float32"
    case UInt32 => "uint32"
    case Bit64 => "64bit"
  }

  /** The name the source returns for each compression. */
  function CompressionName(c: Compression): string
  {
    match c
    case Uncompressed => "uncompressed"
    case Lz77 => "lz77"
    case Jpeg => "jpeg"
    case Jpeg2000 => "jpeg2000"
  }

  /** The (byte 2, byte 3) pattern that identifies each data type. */
  function DataTypePattern(t: DataType): (uint8, uint8)
  {
    match t
    case Bit1 => (0x08, 0x00)
    case Bit4 => (0x20, 0x00)
    case Int8 => (0x41, 0x00)
    case UInt8 => (0x40, 0x00)
    case Int16 => (0x81, 0x00)
    case UInt16 => (0x80, 0x00)
    case Int32 => (0x01, 0x01)
    case Float32 => (0x02, 0x01)
    case UInt32 => (0x00, 0x01)
    case Bit64 => (0x00, 0x02)
  }

  /** The byte-1 value that identifies each compression. */
  function CompressionPattern(c: Compression): uint8
  {
    match c
    case Uncompressed => 0x00
    case Lz77 => 0x04
    case Jpeg => 0x08
    case Jpeg2000 => 0x0C
  }

  /** Byte-2 values some data-type case tests; with a 3-byte signature the
      source indexes byte 3 exactly when byte 2 is one of these. */
  predicate TestedByte2(b: uint8)
  {
    b == 0x08 || b == 0x20 || b == 0x41 || b == 0x40 || b == 0x81 || b == 0x80 || b == 0x01 || b == 0x02 || b == 0x00
  }

  /** `bandTypeToDataTypeString` (main.go:125-151): the first case whose
      byte 2 and byte 3 both match, in the source's order. A signature too
      short for the bytes a case inspects fails, as does one matching no
      case. */
  function DataTypeOf(sig: Bytes): (r: Result<DataType>)
    ensures r.Ok? ==> |sig| >= 4 && DataTypePattern(r.value) == (sig[2], sig[3])
    ensures r.Fail? && |sig| >= 4 ==> forall t :: DataTypePattern(t) != (sig[2], sig[3])
    ensures |sig| < 3 || (|sig| == 3 && TestedByte2(sig[2])) ==> r == Fail(SignatureTooShort)
    ensures |sig| >= 4 && r.Fail? ==> r == Fail(UnrecognisedBandDataType)
  {
    if |sig| < 3 then Fail(SignatureTooShort)
    else if |sig| == 3 then
      if TestedByte2(sig[2]) then Fail(SignatureTooShort) else Fail(UnrecognisedBandDataType)
    else if sig[2] == 0x08 && sig[3] == 0x00 then Ok(Bit1)
    else if sig[2] == 0x20 && sig[3] == 0x00 then Ok(Bit4)
    else if sig[2] == 0x41 && sig[3] == 0x00 then Ok(Int8)
    else if sig[2] == 0x40 && sig[3] == 0x00 then Ok(UInt8)
    else if sig[2] == 0x81 && sig[3] == 0x00 then Ok(Int16)
    else if sig[2] == 0x80 && sig[3] == 0x00 then Ok(UInt16)
    else if sig[2] == 0x01 && sig[3] == 0x01 then Ok(Int32)
    else if sig[2] == 0x02 && sig[3] == 0x01 then Ok(Float32)
    else if sig[2] == 0x00 && sig[3] == 0x01 then Ok(UInt32)
    else if sig[2] == 0x00 && sig[3] == 0x02 then Ok(Bit64)
    else Fail(UnrecognisedBandDataType)
  }

  /** `bandTypeToCompressionTypeString` (main.go:153-167): byte 1 alone
      decides. */
  function CompressionOf(sig: Bytes): (r: Result<Compression>)
    ensures r.Ok? ==> |sig| >= 2 && CompressionPattern(r.value) == sig[1]
    ensures r.Fail? && |sig| >= 2 ==> forall c :: CompressionPattern(c) != sig[1]
    ensures |sig| < 2 ==> r == Fail(SignatureTooShort)
    ensures |sig| >= 2 && r.Fail? ==> r == Fail(UnrecognisedCompression)
  {
    if |sig| < 2 then Fail(SignatureTooShort)
    else if sig[1] == 0x00 then Ok(Uncompressed)
    else if sig[1] == 0x04 then Ok(Lz77)
    else if sig[1] == 0x08 then Ok(Jpeg)
    else if sig[1] == 0x0C then Ok(Jpeg2000)
    else Fail(UnrecognisedCompression)
  }

  /** No two data types share a pattern, so the order of the cases does not
      matter and each pattern decodes to its own type. */
  lemma DataTypePatternsDistinct(t: DataType, u: DataType)
    requires DataTypePattern(t) == DataTypePattern(u)
    ensures t == u
  {
  }

  lemma CompressionPatternsDistinct(c: Compression, d: Compression)
    requires CompressionPattern(c) == CompressionPattern(d)
    ensures c == d
  {
  }

  /** Every data type is recognised from its pattern, whatever the other
      bytes of the signature are. */
  lemma DataTypeOfPattern(sig: Bytes, t: DataType)
    requires |sig| >= 4 && (sig[2], sig[3]) == DataTypePattern(t)
    ensures DataTypeOf(sig) == Ok(t)
  {
    DataTypePatternsDistinct(DataTypeOf(sig).value, t);
  }

  lemma CompressionOfPattern(sig: Bytes, c: Compression)
    requires |sig| >= 2 && sig[1] == CompressionPattern(c)
    ensures CompressionOf(sig) == Ok(c)
  {
    CompressionPatternsDistinct(CompressionOf(sig).value, c);
  }

  /** The data type depends on bytes 2 and 3 only; the compression on byte 1
      only. */
  lemma DataTypeOfLocal(a: Bytes, b: Bytes)
    requires |a| >= 4 && |b| >= 4 && a[2] == b[2] && a[3] == b[3]
    ensures DataTypeOf(a) == DataTypeOf(b)
  {
  }

  lemma CompressionOfLocal(a: Bytes, b: Bytes)
    requires |a| >= 2 && |b| >= 2 && a[1] == b[1]
    ensures CompressionOf(a) == CompressionOf(b)
  {
  }

  /** Signatures noted beside the cases: `0 0 2 1` is an uncompressed
      float32 band, `0 c 81 0` a jpeg2000 int16 band. */
  lemma SignatureExamples(x: uint8)
    ensures DataTypeOf([x, 0x00, 0x02, 0x01]) == Ok(Float32)
    ensures CompressionOf([x, 0x00, 0x02, 0x01]) == Ok(Uncompressed)
    ensures DataTypeOf([x, 0x0C, 0x81, 0x00]) == Ok(Int16)
    ensures CompressionOf([x, 0x0C, 0x81, 0x00]) == Ok(Jpeg2000)
    ensures DataTypeName(Float32) == "float32" && CompressionName(Jpeg2000) == "jpeg2000"
  {
  }
}

=== FILE: cursor.dfy ===
/** The binary cursor: little-endian primitive reads over an immutable byte
    sequence with an explicit position (main.go:205-293).

    A position may lie past the end of the data: the Go decoder seeks with
    `File.Seek`, which succeeds beyond end-of-file (though not before the
    start or past the largest `int64` offset), and only the next read
    fails. A read of `n > 0` bytes succeeds exactly when `n` bytes remain. */
module Cursor {
  import opened Results

  /** A byte; bit tests are written arithmetically (bit k of b is (b / 2^k) % 2). */
  type uint8 = x: int | 0 <= x < 0x100

  type Bytes = seq<uint8>

  const TWO_16: nat := 0x1_0000
  const TWO_32: nat := 0x1_0000_0000
  const TWO_64: nat := 0x1_0000_0000_0000_0000

  /** Unsigned value of a little-endian byte run (first byte least significant). */
  function LittleEndian(bs: Bytes): nat
  {
    if |bs| == 0 then 0 else bs[0] + 256 * LittleEndian(bs[1..])
  }

  /** Two's-complement reinterpretation of an unsigned `width`-bit value, as a
      Go conversion such as `int16(bits)` or `int64(u)` performs it. */
  function ToSigned(u: nat, modulus: nat): (r: int)
    requires modulus > 0 && modulus % 2 == 0 && u < modulus
    ensures -(modulus / 2) <= r < modulus / 2
    ensures r == u || r == u - modulus
    ensures r >= 0 <==> u < modulus / 2
  {
    if u < modulus / 2 then u else u - modulus
  }

  /** The largest file offset: a Go `int64`, the type of a seek target. */
  const MAX_OFFSET: nat := 0x7FFF_FFFF_FFFF_FFFF

  /** The contents of a file. A file is taken to be shorter than 2^62 bytes,
      far above what any filesystem stores, so that a seek of a few bytes
      from a position inside it never passes the largest offset. */
  type File = s: Bytes | |s| < 0x4000_0000_0000_0000

  /** `Seek(off, 1)`: move relative to the current position. A target before
      the start of the file or past the largest offset makes the seek fail;
      the Go decoder ignores that error and the position stays where it was. */
  function SeekCur(pos: nat, off: int): nat
  {
    if 0 <= pos + off <= MAX_OFFSET then pos + off else pos
  }

  /** Two seeks whose targets are both valid offsets make one seek by the
      sum of their distances. */
  lemma SeekCurCompose(pos: nat, a: int, b: int)
    requires 0 <= pos + a <= MAX_OFFSET && 0 <= pos + a + b <= MAX_OFFSET
    ensures SeekCur(SeekCur(pos, a), b) == SeekCur(pos, a + b)
  {
  }

  /** Rewinding over the `n` bytes just read returns to where the read
      started, and a seek by zero never moves. */
  lemma SeekCurRewind(pos: nat, n: nat)
    requires pos + n <= MAX_OFFSET
    ensures SeekCur(pos + n, -(n as int)) == pos
    ensures SeekCur(pos, 0) == pos
  {
  }

  /** A seek of a few bytes from inside a file, or one landing inside it,
      reaches its target. */
  lemma SeekNear(data: File, pos: nat, off: int)
    requires -8 <= off <= 8 && 0 <= pos + off
    ensures pos <= |data| ==> SeekCur(pos, off) == pos + off
    ensures SeekCur(pos, off) < |data| ==> SeekCur(pos, off) == pos + off
  {
  }

  /** `readBytes`: exactly `n` bytes, or a failure when fewer remain. A
      zero-length read succeeds anywhere (an empty `Read` returns at once). */
  function ReadBytes(data: File, pos: nat, n: nat): (r: Result<Parsed<Bytes>>)
    ensures r.Ok? <==> n == 0 || pos + n <= |data|
    ensures r.Ok? ==> r.value.next == pos + n && |r.value.value| == n
    ensures r.Ok? ==> forall k :: 0 <= k < n ==> r.value.value[k] == data[pos + k]
  {
    if n == 0 then Ok(Parsed([], pos))
    else if pos + n <= |data| then Ok(Parsed(data[pos..pos + n], pos + n))
    else Fail(TruncatedRead(pos, n))
  }

  /** `readByte` (main.go:213-219). */
  function ReadByte(data: File, pos: nat): (r: Result<Parsed<uint8>>)
    ensures r.Ok? <==> pos < |data|
    ensures r.Ok? ==> r.value == Parsed(data[pos], pos + 1)
  {
    var b :- ReadBytes(data, pos, 1);
    Ok(Parsed(b.value[0], b.next))
  }

  /** Reads a `width`-byte little-endian unsigned value. */
  function ReadUnsigned(data: File, pos: nat, width: nat): (r: Result<Parsed<nat>>)
    requires width > 0
    ensures r.Ok? <==> pos + width <= |data|
    ensures r.Ok? ==> r.value == Parsed(LittleEndian(data[pos..pos + width]), pos + width)
  {
    var b :- ReadBytes(data, pos, width);
    assert b.value == data[pos..pos + width];
    Ok(Parsed(LittleEndian(b.value), b.next))
  }

  lemma LittleEndian2(bs: Bytes)
    requires |bs| == 2
    ensures LittleEndian(bs) == bs[0] as int + 0x100 * bs[1] as int
  {
    assert bs[1..][1..] == [];
    assert LittleEndian(bs[1..]) == bs[1] as int + 256 * LittleEndian(bs[1..][1..]);
  }

  lemma LittleEndian4(bs: Bytes)
    requires |bs| == 4
    ensures LittleEndian(bs)
         == bs[0] as int + 0x100 * bs[1] as int + 0x1_0000 * bs[2] as int + 0x100_0000 * bs[3] as int
  {
    LittleEndian2(bs[2..]);
    assert bs[1..][1..] == bs[2..];
  }

  /** 256^k, the scale of the k-th byte of a little-endian run. */
  function Pow256(k: nat): (r: nat)
    ensures r > 0
  {
    if k == 0 then 1 else 256 * Pow256(k - 1)
  }

  /** A `|bs|`-byte little-endian value fits in `8 * |bs|` bits. */
  lemma {:induction false} LittleEndianBound(bs: Bytes)
    ensures LittleEndian(bs) < Pow256(|bs|)
  {
    if |bs| > 0 {
      LittleEndianBound(bs[1..]);
    }
  }

  /** `readU32` (main.go:205-211): b0 + 2^8 b1 + 2^16 b2 + 2^24 b3. */
  function ReadU32(data: File, pos: nat): (r: Result<Parsed<nat>>)
    ensures r.Ok? <==> pos + 4 <= |data|
    ensures r.Ok? ==> r.value.next == pos + 4
    ensures r.Ok? ==> r.value.value
                      == data[pos] as int + 0x100 * data[pos + 1] as int
                         + 0x1_0000 * data[pos + 2] as int + 0x100_0000 * data[pos + 3] as int
    ensures r.Ok? ==> r.value.value < TWO_32 && r.value.value == LittleEndian(data[pos..pos + 4])
  {
    var u :- ReadUnsigned(data, pos, 4);
    LittleEndian4(data[pos..pos + 4]);
    Ok(u)
  }

  /** `readInt16` (main.go:229-236): two little-endian bytes as a signed value. */
  function ReadInt16(data: File, pos: nat): (r: Result<Parsed<int>>)
    ensures r.Ok? <==> pos + 2 <= |data|
    ensures r.Ok? ==> r.value.next == pos + 2
    ensures r.Ok? ==> -0x8000 <= r.value.value < 0x8000
    ensures r.Ok? ==> r.value.value % TWO_16 == data[pos] as int + 0x100 * data[pos + 1] as int
  {
    var u :- ReadUnsigned(data, pos, 2);
    LittleEndian2(data[pos..pos + 2]);
    Ok(Parsed(ToSigned(u.value, TWO_16), u.next))
  }

  /** `readInt32` (main.go:238-245): four little-endian bytes as a signed value. */
  function ReadInt32(data: File, pos: nat): (r: Result<Parsed<int>>)
    ensures r.Ok? <==> pos + 4 <= |data|
    ensures r.Ok? ==> r.value.next == pos + 4
    ensures r.Ok? ==> -0x8000_0000 <= r.value.value < 0x8000_0000
    ensures r.Ok? && ReadU32(data, pos).Ok? ==> r.value.value % TWO_32 == ReadU32(data, pos).value.value
  {
    var u :- ReadU32(data, pos);
    Ok(Parsed(ToSigned(u.value, TWO_32), u.next))
  }

  /** `readFloat32` (main.go:247-254), kept as its raw 32-bit pattern: the
      decoder never computes with the value. */
  function ReadFloat32Bits(data: File, pos: nat): (r: Result<Parsed<nat>>)
    ensures r.Ok? <==> pos + 4 <= |data|
    ensures r.Ok? ==> r.value.next == pos + 4 && r.value.value < TWO_32
    ensures r.Ok? ==> r.value.value == LittleEndian(data[pos..pos + 4])
  {
    ReadU32(data, pos)
  }

  /** `readFloat64` (main.go:256-263), kept as its raw 64-bit pattern. */
  function ReadFloat64Bits(data: File, pos: nat): (r: Result<Parsed<nat>>)
    ensures r.Ok? <==> pos + 8 <= |data|
    ensures r.Ok? ==> r.value.next == pos + 8 && r.value.value < TWO_64
    ensures r.Ok? ==> r.value.value == LittleEndian(data[pos..pos + 8])
  {
    var u :- ReadUnsigned(data, pos, 8);
    LittleEndianBound(data[pos..pos + 8]);
    assert Pow256(8) == TWO_64;
    Ok(u)
  }

  // ---------------------------------------------------------------------------
  // Encodings: the partners of the readers.

  /** `bs` sits in `data` at `pos`. */
  predicate BytesAt(data: File, pos: nat, bs: Bytes)
  {
    pos + |bs| <= |data| && forall k :: 0 <= k < |bs| ==> data[pos + k] == bs[k]
  }

  /** Byte `k` of a run that sits at `pos` is at `pos + k`. */
  lemma BytesAtIndex(data: File, pos: nat, bs: Bytes, k: nat)
    requires BytesAt(data, pos, bs) && k < |bs|
    ensures data[pos + k] == bs[k]
  {
  }

  /** A run that sits at `pos` splits into its parts. */
  lemma BytesAtSplit(data: File, pos: nat, a: Bytes, b: Bytes)
    requires BytesAt(data, pos, a + b)
    ensures BytesAt(data, pos, a) && BytesAt(data, pos + |a|, b)
  {
    forall k | 0 <= k < |a|
      ensures data[pos + k] == a[k]
    {
      assert (a + b)[k] == a[k];
    }
    forall k | 0 <= k < |b|
      ensures data[pos + |a| + k] == b[k]
    {
      assert (a + b)[|a| + k] == b[k];
    }
  }

  /** `lo + 256 * hi` splits back into `lo` and `hi`. */
  lemma DivMod256(lo: nat, hi: nat)
    requires lo < 0x100
    ensures (lo + 0x100 * hi) % 0x100 == lo && (lo + 0x100 * hi) / 0x100 == hi
  {
  }

  /** The 4-byte little-endian form of a 32-bit value. */
  function EncodeU32(v: nat): (bs: Bytes)
    requires v < TWO_32
    ensures |bs| == 4
  {
    [v % 0x100, v / 0x100 % 0x100, v / 0x100 / 0x100 % 0x100, v / 0x100 / 0x100 / 0x100]
  }

  /** Reading back an encoded 32-bit word gives the word and consumes 4 bytes. */
  lemma ReadU32RoundTrip(data: File, pos: nat, v: nat)
    requires v < TWO_32 && BytesAt(data, pos, EncodeU32(v))
    ensures ReadU32(data, pos) == Ok(Parsed(v, pos + 4))
  {
    var e := EncodeU32(v);
    assert data[pos] == e[0] && data[pos + 1] == e[1] && data[pos + 2] == e[2] && data[pos + 3] == e[3];
    var q1 := v / 0x100;
    var q2 := q1 / 0x100;
    var q3 := q2 / 0x100;
    assert v == e[0] + 0x100 * q1;
    assert q1 == e[1] + 0x100 * q2;
    assert q2 == e[2] + 0x100 * q3;
    assert q3 == e[3];
  }

  /** Every 4-byte word is the encoding of the value `readU32` reads from it. */
  lemma ReadU32Encodes(data: File, pos: nat)
    requires pos + 4 <= |data|
    ensures BytesAt(data, pos, EncodeU32(ReadU32(data, pos).value.value))
  {
    var b0: nat, b1: nat, b2: nat, b3: nat := data[pos], data[pos + 1], data[pos + 2], data[pos + 3];
    var w2: nat := b2 + 0x100 * b3;
    var w1: nat := b1 + 0x100 * w2;
    var v: nat := b0 + 0x100 * w1;
    assert ReadU32(data, pos).value.value == v;
    DivMod256(b0, w1);
    DivMod256(b1, w2);
    DivMod256(b2, b3);
    assert EncodeU32(v) == [b0, b1, b2, b3];
  }

  // ---------------------------------------------------------------------------
  // readVarUint (main.go:265-277)

  /** The 7 payload bits of a varint byte (`b & 0x7F`). */
  function Low7(b: uint8): nat
  {
    b % 0x80
  }

  /** True when the byte announces a following byte (`b & 0x80 != 0`). */
  predicate Continues(b: uint8)
  {
    b >= 0x80
  }

  /** The unbounded value of a varint's bytes: the sum of (b_i mod 0x80) * 2^(7i). */
  function VarUintValue(bs: Bytes): nat
  {
    if |bs| == 0 then 0 else Low7(bs[0]) + 128 * VarUintValue(bs[1..])
  }

  /** Reads bytes up to and including the first one whose high bit is clear,
      and returns their unbounded varint value. */
  function VarUintFrom(data: File, pos: nat): (r: Result<Parsed<nat>>)
    decreases |data| - pos
    ensures r.Ok? ==> pos < r.value.next <= |data|
    ensures r.Ok? ==> !Continues(data[r.value.next - 1])
    ensures r.Ok? ==> forall k :: pos <= k < r.value.next - 1 ==> Continues(data[k])
    ensures r.Ok? ==> r.value.value == VarUintValue(data[pos..r.value.next])
    ensures r.Fail? <==> forall k :: pos <= k < |data| ==> Continues(data[k])
  {
    var b :- ReadByte(data, pos);
    if !Continues(b.value) then
      assert data[pos..pos + 1][1..] == [];
      Ok(Parsed(Low7(b.value), b.next))
    else
      var rest :- VarUintFrom(data, b.next);
      assert data[pos..rest.next][1..] == data[pos + 1..rest.next];
      Ok(Parsed(Low7(b.value) + 128 * rest.value, rest.next))
  }

  /** `readVarUint`: the Go accumulator is a `uint64` and a left shift by 64 or
      more yields zero, so the value is the unbounded sum reduced mod 2^64. */
  function ReadVarUint(data: File, pos: nat): (r: Result<Parsed<nat>>)
    ensures r.Ok? == VarUintFrom(data, pos).Ok?
    ensures r.Ok? ==> r.value.next == VarUintFrom(data, pos).value.next
    ensures r.Ok? ==> r.value.value == VarUintValue(data[pos..r.value.next]) % TWO_64
    ensures r.Ok? ==> r.value.value < TWO_64
  {
    var u :- VarUintFrom(data, pos);
    Ok(Parsed(u.value % TWO_64, u.next))
  }

  /** A single byte below 0x80 decodes to itself and consumes one byte. */
  lemma ReadVarUintSingleByte(data: File, pos: nat)
    requires pos < |data| && data[pos] < 0x80
    ensures ReadVarUint(data, pos) == Ok(Parsed(data[pos], pos + 1))
  {
  }

  /** The canonical varint encoding of `v`: 7 bits per byte, least significant
      group first, high bit set on every byte but the last. */
  function EncodeVarUint(v: nat): (bs: Bytes)
    decreases v
    ensures |bs| > 0
  {
    if v < 0x80 then [v]
    else [v % 0x80 + 0x80] + EncodeVarUint(v / 0x80)
  }

  /** The last byte of a varint contributes its 7 bits and ends the read. */
  lemma VarUintLast(data: File, pos: nat)
    requires pos < |data| && !Continues(data[pos])
    ensures VarUintFrom(data, pos) == Ok(Parsed(Low7(data[pos]), pos + 1))
  {
  }

  /** One step of the varint reader: a continuing byte adds its 7 bits below
      whatever the following bytes decode to. */
  lemma VarUintStep(data: File, pos: nat, w: nat, e: nat)
    requires pos < |data| && Continues(data[pos])
    requires VarUintFrom(data, pos + 1) == Ok(Parsed(w, e))
    ensures VarUintFrom(data, pos) == Ok(Parsed(Low7(data[pos]) + 128 * w, e))
  {
  }

  /** Decoding the encoding of `v` gives `v` back and stops right after it,
      whatever follows it. */
  lemma {:induction false} VarUintRoundTrip(data: File, pos: nat, v: nat)
    requires BytesAt(data, pos, EncodeVarUint(v))
    decreases v
    ensures VarUintFrom(data, pos) == Ok(Parsed(v, pos + |EncodeVarUint(v)|))
  {
    var enc := EncodeVarUint(v);
    assert data[pos + 0] == enc[0];
    if v < 0x80 {
      assert |enc| == 1;
      VarUintLast(data, pos);
    } else {
      var tail := EncodeVarUint(v / 0x80);
      assert enc == [v % 0x80 + 0x80] + tail;
      BytesAtSplit(data, pos, [v % 0x80 + 0x80], tail);
      VarUintRoundTrip(data, pos + 1, v / 0x80);
      VarUintStep(data, pos, v / 0x80, pos + 1 + |tail|);
      assert Low7(data[pos]) + 128 * (v / 0x80) == v;
    }
  }

  /** For values that fit in 64 bits, `readVarUint` inverts the encoding. */
  lemma ReadVarUintRoundTrip(data: File, pos: nat, v: nat)
    requires v < TWO_64 && BytesAt(data, pos, EncodeVarUint(v))
    ensures ReadVarUint(data, pos) == Ok(Parsed(v, pos + |EncodeVarUint(v)|))
  {
    VarUintRoundTrip(data, pos, v);
  }

  // ---------------------------------------------------------------------------
  // getString (main.go:279-293)

  /** Reads `n` 2-byte units and keeps the first byte of each as a character
      (`%c` of a byte is the code point of that byte). After the last unit's
      first byte the cursor seeks one further, which succeeds even past the
      end, so the final unit's second byte need not exist. */
  function WideChars(data: File, pos: nat, n: int): (r: Result<Parsed<string>>)
    decreases if n > 0 then n else 0
    ensures r.Ok? <==> n <= 0 || pos + 2 * n - 1 <= |data|
    ensures r.Ok? && n <= 0 ==> r.value == Parsed("", pos)
    ensures r.Ok? && n > 0 ==> r.value.next == pos + 2 * n && |r.value.value| == n
    ensures r.Ok? && n > 0 ==>
              forall j :: 0 <= j < n ==> r.value.value[j] == (data[pos + 2 * j] as int) as char
    ensures r.Ok? ==> WideAt(data, pos, r.value.value)
  {
    if n <= 0 then Ok(Parsed("", pos))
    else
      var b :- ReadByte(data, pos);
      var rest :- WideChars(data, SeekCur(b.next, 1), n - 1);
      Ok(Parsed([(b.value as int) as char] + rest.value, rest.next))
  }

  /** `s` is stored from `pos` on one character per 2-byte unit, each
      character being the unit's first byte. */
  predicate WideAt(data: File, pos: nat, s: string)
  {
    forall j {:trigger s[j]} :: 0 <= j < |s| ==> pos + 2 * j < |data| && s[j] == (data[pos + 2 * j] as int) as char
  }

  /** `getString(f, nb)`: with `nb == -1` a count byte comes first; any other
      `nb` is the character count itself (a negative one reads nothing). */
  function GetString(data: File, pos: nat, nb: int): (r: Result<Parsed<string>>)
    ensures nb == -1 ==> (r.Ok? ==> pos < |data|)
    ensures nb == -1 && pos < |data| ==> r == WideChars(data, pos + 1, data[pos] as int)
    ensures nb == -1 && r.Ok? ==>
              r.value.next == pos + 1 + 2 * data[pos] as int && |r.value.value| == data[pos] as int
    ensures nb >= 0 ==> r == WideChars(data, pos, nb)
    ensures nb < -1 ==> r == Ok(Parsed("", pos))
    ensures nb == -1 && r.Ok? ==> WideAt(data, pos + 1, r.value.value)
    ensures nb >= 0 && r.Ok? ==> WideAt(data, pos, r.value.value)
    ensures nb >= 0 && r.Ok? ==> |r.value.value| == nb && r.value.next == pos + 2 * nb
  {
    if nb == -1 then
      var c :- ReadByte(data, pos);
      WideChars(data, c.next, c.value as int)
    else
      WideChars(data, pos, nb)
  }

  /** A name the on-disk form can hold: fewer than 256 characters, each one
      byte wide. */
  predicate NameFits(s: string)
  {
    |s| < 0x100 && forall j :: 0 <= j < |s| ==> s[j] as int < 0x100
  }

  /** The on-disk form of a count-prefixed name: a count byte, then one 2-byte
      unit per character, low byte first. */
  function EncodeName(s: string): (bs: Bytes)
    requires NameFits(s)
    ensures |bs| == 1 + 2 * |s|
  {
    [|s|] + EncodeUnits(s)
  }

  function EncodeUnits(s: string): (bs: Bytes)
    requires forall j :: 0 <= j < |s| ==> s[j] as int < 0x100
    ensures |bs| == 2 * |s|
  {
    if |s| == 0 then [] else [s[0] as int, 0] + EncodeUnits(s[1..])
  }

  /** Wide units read back as the characters they encode. */
  lemma {:induction false} WideCharsRoundTrip(data: File, pos: nat, s: string)
    requires forall j :: 0 <= j < |s| ==> s[j] as int < 0x100
    requires BytesAt(data, pos, EncodeUnits(s))
    decreases |s|
    ensures WideChars(data, pos, |s|) == Ok(Parsed(s, pos + 2 * |s|))
  {
    if |s| > 0 {
      var unit: Bytes := [s[0] as int, 0];
      assert EncodeUnits(s) == unit + EncodeUnits(s[1..]);
      BytesAtSplit(data, pos, unit, EncodeUnits(s[1..]));
      assert data[pos + 0] == unit[0];
      WideCharsRoundTrip(data, pos + 2, s[1..]);
      assert ((data[pos] as int) as char) == s[0];
      assert [s[0]] + s[1..] == s;
    }
  }

  /** A count-prefixed name reads back as itself, consuming 1 + 2 * |s| bytes. */
  lemma GetStringRoundTrip(data: File, pos: nat, s: string)
    requires NameFits(s)
    requires BytesAt(data, pos, EncodeName(s))
    ensures GetString(data, pos, -1) == Ok(Parsed(s, pos + 1 + 2 * |s|))
  {
    assert EncodeName(s) == [|s|] + EncodeUnits(s);
    BytesAtSplit(data, pos, [|s|], EncodeUnits(s));
    assert data[pos + 0] == [|s|][0];
    WideCharsRoundTrip(data, pos + 1, s);
  }
}

=== FILE: field_encoding.dfy ===
/** The on-disk form of field descriptors whose bodies carry no spatial
    data, written out byte by byte, and the proofs that the descriptor
    decoder (main.go:339-519) reads each form back. */
module FieldEncoding {
  import opened Results
  import opened Cursor
  import opened Fields

  /** A descriptor head: the name, the alias, then the type tag. */
  function EncodeHead(h: Head): (bs: Bytes)
    requires NameFits(h.name) && NameFits(h.alias)
    ensures |bs| == 3 + 2 * |h.name| + 2 * |h.alias|
  {
    EncodeName(h.name) + (EncodeName(h.alias) + [h.tag])
  }

  /** The head reads back as itself and ends where its encoding ends. */
  lemma DecodeHeadRoundTrip(data: File, pos: nat, h: Head)
    requires NameFits(h.name) && NameFits(h.alias)
    requires BytesAt(data, pos, EncodeHead(h))
    ensures DecodeHead(data, pos) == Ok(Parsed(h, pos + |EncodeHead(h)|))
  {
    var n, a := EncodeName(h.name), EncodeName(h.alias);
    assert EncodeHead(h) == n + (a + [h.tag]);
    var p1, p2 := pos + |n|, pos + |n| + |a|;
    NameRoundTrip(data, pos, h.name, a + [h.tag]);
    NameRoundTrip(data, p1, h.alias, [h.tag]);
    BytesAtIndex(data, p2, [h.tag], 0);
    DecodeHeadParts(data, pos, h, p1, p2);
  }

  /** A name followed by other bytes reads back as itself, and the other
      bytes follow where the read stops. */
  lemma NameRoundTrip(data: File, pos: nat, s: string, rest: Bytes)
    requires NameFits(s)
    requires BytesAt(data, pos, EncodeName(s) + rest)
    ensures GetString(data, pos, -1) == Ok(Parsed(s, pos + |EncodeName(s)|))
    ensures BytesAt(data, pos + |EncodeName(s)|, rest)
  {
    BytesAtSplit(data, pos, EncodeName(s), rest);
    GetStringRoundTrip(data, pos, s);
  }

  /** The head decoder chains its three reads. */
  lemma DecodeHeadParts(data: File, pos: nat, h: Head, p1: nat, p2: nat)
    requires GetString(data, pos, -1) == Ok(Parsed(h.name, p1))
    requires GetString(data, p1, -1) == Ok(Parsed(h.alias, p2))
    requires p2 < |data| && data[p2] == h.tag
    ensures DecodeHead(data, pos) == Ok(Parsed(h, p2 + 1))
  {
  }

  /** Tags whose body is two bytes: ObjectID, tag 8, GUID and XML. */
  predicate TwoByteTag(tag: uint8)
  {
    tag == OBJECT_ID || tag == 8 || tag == 10 || tag == 11 || tag == 12
  }

  /** A descriptor with a two-byte body: a width (or reserved) byte and the
      flag byte. It is nullable when flag bit 0 is set, unless it is the
      ObjectID. */
  lemma TwoByteFieldRoundTrip(data: File, pos: nat, h: Head, width: uint8, flag: uint8)
    requires NameFits(h.name) && NameFits(h.alias) && TwoByteTag(h.tag)
    requires BytesAt(data, pos, EncodeHead(h) + [width, flag])
    ensures DecodeField(data, pos)
         == Ok(Parsed(Field(h.name, h.alias, h.tag, h.tag != OBJECT_ID && NullableFlag(flag), Plain),
                      pos + |EncodeHead(h)| + 2))
  {
    var e := EncodeHead(h);
    BytesAtSplit(data, pos, e, [width, flag]);
    DecodeHeadRoundTrip(data, pos, h);
    TwoByteFieldParts(data, pos, h, pos + |e|, width, flag);
  }

  /** A decoded head followed by a two-byte body makes the descriptor. */
  lemma TwoByteFieldParts(data: File, pos: nat, h: Head, p: nat, width: uint8, flag: uint8)
    requires TwoByteTag(h.tag) && DecodeHead(data, pos) == Ok(Parsed(h, p))
    requires BytesAt(data, p, [width, flag])
    ensures DecodeField(data, pos)
         == Ok(Parsed(Field(h.name, h.alias, h.tag, h.tag != OBJECT_ID && NullableFlag(flag), Plain), p + 2))
  {
    TwoByteBodyRoundTrip(data, p, h.tag, width, flag);
    DecodeFieldParts(data, pos, h, p, Body(h.tag != OBJECT_ID && NullableFlag(flag), Plain), p + 2);
  }

  /** The descriptor decoder chains the head and the body. */
  lemma DecodeFieldParts(data: File, pos: nat, h: Head, p: nat, body: Body, e: nat)
    requires DecodeHead(data, pos) == Ok(Parsed(h, p))
    requires DecodeBody(data, p, h.tag) == Ok(Parsed(body, e))
    ensures DecodeField(data, pos) == Ok(Parsed(Field(h.name, h.alias, h.tag, body.nullable, body.payload), e))
  {
  }

  lemma TwoByteBodyRoundTrip(data: File, pos: nat, tag: uint8, width: uint8, flag: uint8)
    requires TwoByteTag(tag) && BytesAt(data, pos, [width, flag])
    ensures DecodeBody(data, pos, tag) == Ok(Parsed(Body(tag != OBJECT_ID && NullableFlag(flag), Plain), pos + 2))
  {
    BytesAtIndex(data, pos, [width, flag], 1);
  }

  /** Tags the numeric branch decodes: every tag without a branch of its own. */
  predicate NumericTag(tag: uint8)
  {
    !TwoByteTag(tag) && tag != SHAPE && tag != STRING && tag != RASTER
  }

  /** The numeric branch's body: width, flag, default length, then the
      default value. */
  function EncodeNumericBody(width: uint8, flag: uint8, default: Bytes): (bs: Bytes)
    requires |default| < 0x100
    ensures |bs| == 3 + |default|
  {
    [width, flag, |default|] + default
  }

  /** The numeric body reads back: the default value is consumed exactly
      when flag bit 2 announces it, whatever its type and length. */
  lemma NumericBodyRoundTrip(data: File, pos: nat, tag: uint8, width: uint8, flag: uint8, default: Bytes)
    requires NumericTag(tag) && |default| < 0x100
    requires BytesAt(data, pos, EncodeNumericBody(width, flag, default))
    ensures DecodeBody(data, pos, tag)
         == Ok(Parsed(Body(NullableFlag(flag), Plain), pos + 3 + if HasDefault(flag) then |default| else 0))
  {
    BytesAtSplit(data, pos, [width, flag, |default|], default);
    BytesAtIndex(data, pos, [width, flag, |default|], 1);
    BytesAtIndex(data, pos, [width, flag, |default|], 2);
  }

  /** The String branch's body: a 4-byte width, the flag, the default length
      as a varint, then the default value. */
  function EncodeStringBody(width: nat, flag: uint8, default: Bytes): (bs: Bytes)
    requires width < TWO_32
    ensures |bs| == 5 + |EncodeVarUint(|default|)| + |default|
  {
    EncodeU32(width) + ([flag] + (EncodeVarUint(|default|) + default))
  }

  /** The String body reads back: a default value shorter than 2^63 bytes is
      skipped exactly when flag bit 2 announces it. */
  lemma StringBodyRoundTrip(data: File, pos: nat, width: nat, flag: uint8, default: Bytes)
    requires width < TWO_32 && |default| < TWO_64 / 2
    requires BytesAt(data, pos, EncodeStringBody(width, flag, default))
    ensures DecodeBody(data, pos, STRING)
         == Ok(Parsed(Body(NullableFlag(flag), Plain),
                      pos + 5 + |EncodeVarUint(|default|)| + if HasDefault(flag) then |default| else 0))
  {
    var e := pos + 5 + |EncodeVarUint(|default|)|;
    assert && pos + 5 <= |data| && data[pos + 4] == flag
           && ReadVarUint(data, pos + 5) == Ok(Parsed(|default|, e))
           && e + |default| <= MAX_OFFSET by {
      BytesAtSplit(data, pos, EncodeU32(width), [flag] + (EncodeVarUint(|default|) + default));
      StringBodyTail(data, pos, flag, default);
    }
    StringBodyParts(data, pos, flag, |default|, e);
  }

  /** After the width word: the flag byte, then the varint length, then the
      default value, all inside the file. */
  lemma StringBodyTail(data: File, pos: nat, flag: uint8, default: Bytes)
    requires |default| < TWO_64 / 2
    requires BytesAt(data, pos + 4, [flag] + (EncodeVarUint(|default|) + default))
    ensures pos + 5 <= |data| && data[pos + 4] == flag
    ensures ReadVarUint(data, pos + 5) == Ok(Parsed(|default|, pos + 5 + |EncodeVarUint(|default|)|))
    ensures pos + 5 + |EncodeVarUint(|default|)| + |default| <= |data|
  {
    var v := EncodeVarUint(|default|);
    BytesAtSplit(data, pos + 4, [flag], v + default);
    BytesAtIndex(data, pos + 4, [flag], 0);
    assert pos + 4 + |[flag]| == pos + 5;
    assert BytesAt(data, pos + 5, v + default);
    BytesAtSplit(data, pos + 5, v, default);
    ReadVarUintRoundTrip(data, pos + 5, |default|);
  }

  /** The String decoder chains its reads; a length below 2^63 is a forward
      seek. */
  lemma StringBodyParts(data: File, pos: nat, flag: uint8, len: nat, e: nat)
    requires pos + 5 <= |data| && data[pos + 4] == flag
    requires ReadVarUint(data, pos + 5) == Ok(Parsed(len, e)) && len < TWO_64 / 2 && e + len <= MAX_OFFSET
    ensures DecodeBody(data, pos, STRING)
         == Ok(Parsed(Body(NullableFlag(flag), Plain), e + if HasDefault(flag) then len else 0))
  {
  }
}

=== FILE: fields.dfy ===
/** Field descriptors: the per-column entries of a `.gdbtable` header
    (main.go:337-528). Each entry is a count-prefixed name, a count-prefixed
    alias, a one-byte type tag, and a body whose layout depends on the tag. */
module Fields {
  import opened Results
  import opened Cursor
  import opened SpatialRef

  /** The row identifier type: parsed, never nullable, never listed. */
  const OBJECT_ID: uint8 := 6
  const SHAPE: uint8 := 7
  const STRING: uint8 := 4
  const RASTER: uint8 := 9

  /** What a descriptor carries beyond its name, type and nullability. The
      source keeps both a `Shape` and a `RasFields` record in every field and
      fills at most one; here the filled one is the variant. */
  datatype Payload =
    | Plain
    | ShapeInfo(wkt: string, ref: Reference, extent: Extent)
    | RasterInfo(column: string, wkt: string, ref: Reference)

  datatype Field = Field(name: string, alias: string, tag: uint8, nullable: bool, payload: Payload)

  /** The decoded body of a descriptor (everything after the type tag). */
  datatype Body = Body(nullable: bool, payload: Payload)

  /** Bit 0 of the flag byte (`flag & 1`): the field may be null. */
  predicate NullableFlag(flag: uint8)
  {
    flag % 2 == 1
  }

  /** Bit 2 of the flag byte (`flag & 4`): a default value follows. */
  predicate HasDefault(flag: uint8)
  {
    flag / 4 % 2 == 1
  }

  /** Offset of the flag byte from the start of a body. */
  function FlagOffset(tag: uint8): nat
  {
    if tag == STRING then 4 else 1
  }

  // ---------------------------------------------------------------------------
  // One function per branch of the type switch.

  /** Tag 6, ObjectID (main.go:351-354): two reserved bytes. */
  function DecodeObjectId(data: File, pos: nat): (r: Result<Parsed<Body>>)
    ensures r.Ok? <==> pos + 2 <= |data|
    ensures r.Ok? ==> r.value == Parsed(Body(false, Plain), pos + 2)
  {
    var b1 :- ReadByte(data, pos);
    var b2 :- ReadByte(data, b1.next);
    Ok(Parsed(Body(false, Plain), b2.next))
  }

  /** Tag 7, Shape (main.go:356-415): the flag byte and WKT, then the
      geometry-kind byte, the reference block, the extent, and the trailing
      datum values. */
  function DecodeShape(data: File, pos: nat): (r: Result<Parsed<Body>>)
    ensures r.Ok? ==> pos + 3 <= |data|
    ensures r.Ok? ==> r.value.value.nullable == NullableFlag(data[pos + 1])
    ensures r.Ok? ==> r.value.value.payload.ShapeInfo?
    ensures r.Ok? ==> ShapeLayout(data, pos, r.value.value.payload, r.value.next)
  {
    var text :- ShapeText(data, pos);
    var geometry :- ShapeGeometry(data, WktEnd(data, pos));
    var shape := ShapeInfo(text.value.1, geometry.value.0, geometry.value.1);
    Ok(Parsed(Body(NullableFlag(text.value.0), shape), geometry.next))
  }

  /** A Shape body decodes exactly when its flag and WKT can be read and the
      geometry after the WKT can be read. */
  lemma DecodeShapeSucceeds(data: File, pos: nat)
    ensures DecodeShape(data, pos).Ok? <==>
              ShapeText(data, pos).Ok? && ShapeGeometry(data, WktEnd(data, pos)).Ok?
  { }

  /** The Shape body as the source decodes it, with the datum loop as
      written: whatever the bytes, the decode fails. */
  function DecodeShapeAsWritten(data: File, pos: nat): (r: Result<Parsed<Body>>)
    ensures r.Fail?
  {
    var text :- ShapeText(data, pos);
    var magic :- ReadByte(data, WktEnd(data, pos));
    var zm := ZMFromMagic(magic.value);
    var ref :- ReadReference(data, magic.next, zm.0, zm.1);
    var extent :- ReadExtent(data, ref.next);
    var shape := ShapeInfo(text.value.1, ref.value, extent.value);
    match ShapeTrailerAsWritten(data, extent.next)
    case Fail(e) => Fail(e)
    case Ok(end) => Ok(Parsed(Body(NullableFlag(text.value.0), shape), end))
  }

  /** The start of a Shape body (main.go:357-363): a reserved byte, the flag
      byte, the WKT byte length and the WKT itself, half that many 2-byte
      units. Returns the flag byte and the WKT. */
  function ShapeText(data: File, pos: nat): (r: Result<Parsed<(uint8, string)>>)
    ensures r.Ok? <==> pos + 3 <= |data| && (data[pos + 2] / 2 == 0 || WktEnd(data, pos) - 1 <= |data|)
    ensures r.Ok? ==>
              && pos + 3 <= |data|
              && r.value.value.0 == data[pos + 1]
              && |r.value.value.1| == data[pos + 2] / 2
              && WideAt(data, pos + 3, r.value.value.1)
              && r.value.next == WktEnd(data, pos)
  {
    var magic1 :- ReadByte(data, pos);
    var flag :- ReadByte(data, magic1.next);
    var wktLen :- ReadByte(data, flag.next);
    var wkt :- GetString(data, wktLen.next, wktLen.value / 2);
    Ok(Parsed((flag.value, wkt.value), wkt.next))
  }

  /** Where the WKT of a Shape body at `pos` ends: after the three leading
      bytes and `data[pos + 2] / 2` two-byte units. */
  function WktEnd(data: File, pos: nat): nat
    requires pos + 3 <= |data|
  {
    pos + 3 + 2 * (data[pos + 2] / 2)
  }

  /** The rest of a Shape body (main.go:365-415), from the geometry-kind byte
      at `m` on. */
  function ShapeGeometry(data: File, m: nat): (r: Result<Parsed<(Reference, Extent)>>)
    ensures r.Ok? ==> m < |data| && GeometryAt(data, m, r.value.value.0, r.value.value.1, r.value.next)
  {
    var magic :- ReadByte(data, m);
    var zm := ZMFromMagic(magic.value);
    var ref :- ReadReference(data, magic.next, zm.0, zm.1);
    var extent :- ReadExtent(data, ref.next);
    var trailer :- ShapeTrailer(data, extent.next);
    Ok(Parsed((ref.value, extent.value), trailer.next))
  }

  /** The geometry at `m` decodes exactly when the kind byte, the reference
      block it selects and the 32-byte extent lie inside the file and the
      trailer after them decodes. */
  lemma ShapeGeometrySucceeds(data: File, m: nat)
    ensures ShapeGeometry(data, m).Ok? <==>
              && m < |data|
              && var ext := m + 1 + 8 * ReferenceWords(ZMFromMagic(data[m]).0, ZMFromMagic(data[m]).1);
                 && ext + 32 <= |data|
                 && ShapeTrailer(data, ext + 32).Ok?
  { }

  /** The geometry-kind byte at `m` chooses Z and M; the reference block
      follows it, the 4-word extent follows the block, and the trailer
      follows the extent, ending at `next`. */
  ghost predicate GeometryAt(data: File, m: nat, ref: Reference, extent: Extent, next: nat)
    requires m < |data|
  {
    && ref.hasZ == ZMFromMagic(data[m]).0
    && ref.hasM == ZMFromMagic(data[m]).1
    && ReferenceLayout(data, m + 1, ref)
    && var ext := m + 1 + 8 * ReferenceWords(ref.hasZ, ref.hasM);
       && ext + 32 <= |data|
       && ExtentLayout(data, ext, extent)
       && ShapeTrailer(data, ext + 32).Ok?
       && next == ShapeTrailer(data, ext + 32).value.next
  }

  /** Where a Shape body's parts lie: the WKT of `data[pos + 2] / 2` units,
      then the geometry from the byte after it. */
  ghost predicate ShapeLayout(data: File, pos: nat, shape: Payload, next: nat)
    requires pos + 3 <= |data| && shape.ShapeInfo?
  {
    && WktEnd(data, pos) < |data|
    && |shape.wkt| == data[pos + 2] / 2
    && WideAt(data, pos + 3, shape.wkt)
    && GeometryAt(data, WktEnd(data, pos), shape.ref, shape.extent, next)
  }

  /** Tag 4, String (main.go:417-428): a 4-byte width, the flag byte, a varint
      default-value length, and, when the flag announces a default and the
      length is nonzero, a relative seek over the default value. The seek
      offset is the length converted to a signed 64-bit integer. */
  function DecodeString(data: File, pos: nat): (r: Result<Parsed<Body>>)
    ensures r.Ok? <==> pos + 5 <= |data| && ReadVarUint(data, pos + 5).Ok?
    ensures r.Ok? ==> r.value.value == Body(NullableFlag(data[pos + 4]), Plain)
    ensures r.Ok? ==>
              var len := ReadVarUint(data, pos + 5).value;
              r.value.next == if HasDefault(data[pos + 4]) && len.value > 0
                              then SeekCur(len.next, ToSigned(len.value, TWO_64))
                              else len.next
  {
    var width :- ReadU32(data, pos);
    var flag :- ReadByte(data, width.next);
    var len :- ReadVarUint(data, flag.next);
    var next := if HasDefault(flag.value) && len.value > 0
                then SeekCur(len.next, ToSigned(len.value, TWO_64))
                else len.next;
    Ok(Parsed(Body(NullableFlag(flag.value), Plain), next))
  }

  /** Tag 8 (main.go:430-435): one byte skipped by a seek, then the flag byte. */
  function DecodeReserved(data: File, pos: nat): (r: Result<Parsed<Body>>)
    ensures r.Ok? <==> pos + 2 <= |data|
    ensures r.Ok? ==> r.value == Parsed(Body(NullableFlag(data[pos + 1]), Plain), pos + 2)
  {
    var flag :- ReadByte(data, SeekCur(pos, 1));
    Ok(Parsed(Body(NullableFlag(flag.value), Plain), flag.next))
  }

  /** Tag 9, Raster (main.go:437-485): a skipped byte, the flag byte, the
      linked column name, the WKT as for Shape, the raster-kind byte, the
      reference block only when that byte is nonzero, and a final skipped
      byte (a seek, so it need not exist). */
  function DecodeRaster(data: File, pos: nat): (r: Result<Parsed<Body>>)
    ensures r.Ok? <==> pos + 2 <= |data| && RasterPayload(data, pos + 2).Ok?
    ensures r.Ok? ==> pos + 2 <= |data|
    ensures r.Ok? ==> r.value.value.nullable == NullableFlag(data[pos + 1])
    ensures r.Ok? ==> r.value.value.payload.RasterInfo?
    ensures r.Ok? ==>
              && RasterText(data, pos + 2).Ok?
              && r.value.value.payload.column == RasterText(data, pos + 2).value.value.0
              && r.value.value.payload.wkt == RasterText(data, pos + 2).value.value.1
              && var m := RasterText(data, pos + 2).value.next;
                 && m < |data|
                 && RasterBlockAt(data, m, r.value.value.payload.ref, r.value.next)
  {
    var flag :- ReadByte(data, SeekCur(pos, 1));
    SeekNear(data, pos, 1);
    // The flag byte sat at pos + 1, so the text starts right after it.
    var payload :- RasterPayload(data, pos + 2);
    Ok(Parsed(Body(NullableFlag(flag.value), payload.value), payload.next))
  }

  /** Everything of a Raster body after the flag byte, from `c` on: the text,
      the raster-kind byte and its block, and the final skipped byte. */
  function RasterPayload(data: File, c: nat): (r: Result<Parsed<Payload>>)
    ensures r.Ok? <==> RasterText(data, c).Ok? && RasterReference(data, RasterText(data, c).value.next).Ok?
    ensures r.Ok? ==>
              && r.value.value.RasterInfo?
              && RasterText(data, c).Ok?
              && r.value.value.column == RasterText(data, c).value.value.0
              && r.value.value.wkt == RasterText(data, c).value.value.1
              && var m := RasterText(data, c).value.next;
                 && m < |data|
                 && RasterBlockAt(data, m, r.value.value.ref, r.value.next)
  {
    var text :- RasterText(data, c);
    var ref :- RasterReference(data, text.next);
    Ok(Parsed(RasterInfo(text.value.0, text.value.1, ref.value), SeekCur(ref.next, 1)))
  }

  /** The linked column name (count-prefixed) and the WKT (a byte length,
      then half that many 2-byte units) of a Raster field. */
  function RasterText(data: File, c: nat): (r: Result<Parsed<(string, string)>>)
    ensures r.Ok? <==>
              && c < |data|
              && var l := c + 1 + 2 * data[c] as int;
                 && l < |data|
                 && (data[l] / 2 == 0 || l + 2 * (data[l] / 2) <= |data|)
    ensures r.Ok? ==>
              && c < |data|
              && var l := c + 1 + 2 * data[c] as int;
                 && l < |data|
                 && |r.value.value.0| == data[c]
                 && WideAt(data, c + 1, r.value.value.0)
                 && |r.value.value.1| == data[l] / 2
                 && WideAt(data, l + 1, r.value.value.1)
                 && r.value.next == l + 1 + 2 * (data[l] / 2)
  {
    var column :- GetString(data, c, -1);
    var wktLen :- ReadByte(data, column.next);
    var wkt :- GetString(data, wktLen.next, wktLen.value / 2);
    assert wktLen.next == column.next + 1 && wktLen.value == data[column.next];
    Ok(Parsed((column.value, wkt.value), wkt.next))
  }

  /** The raster-kind byte at `m` and what follows it: a zero byte means no
      block and every reference value at zero; otherwise the block as for
      Shape. Either way one more byte is skipped before `next`. */
  ghost predicate RasterBlockAt(data: File, m: nat, ref: Reference, next: nat)
    requires m < |data|
  {
    if data[m] == 0 then
      ref == NoReference && next == m + 2
    else
      && ref.hasZ == ZMFromMagic(data[m]).0
      && ref.hasM == ZMFromMagic(data[m]).1
      && ReferenceLayout(data, m + 1, ref)
      && next == m + 1 + 8 * ReferenceWords(ref.hasZ, ref.hasM) + 1
  }

  /** The raster-kind byte at `m` and the reference block it selects. */
  function RasterReference(data: File, m: nat): (r: Result<Parsed<Reference>>)
    ensures r.Ok? <==>
              && m < |data|
              && (data[m] == 0 || m + 1 + 8 * ReferenceWords(ZMFromMagic(data[m]).0, ZMFromMagic(data[m]).1) <= |data|)
    ensures r.Ok? ==> m < |data| && r.value.next <= |data| && RasterBlockAt(data, m, r.value.value, r.value.next + 1)
  {
    var magic :- ReadByte(data, m);
    if magic.value > 0 then
      var zm := ZMFromMagic(magic.value);
      ReadReference(data, magic.next, zm.0, zm.1)
    else
      Ok(Parsed(NoReference, magic.next))
  }

  /** Tags 10, 11, 12, GUID and XML (main.go:487-492): width byte, flag byte. */
  function DecodeWidthAndFlag(data: File, pos: nat): (r: Result<Parsed<Body>>)
    ensures r.Ok? <==> pos + 2 <= |data|
    ensures r.Ok? ==> r.value == Parsed(Body(NullableFlag(data[pos + 1]), Plain), pos + 2)
  {
    var width :- ReadByte(data, pos);
    var flag :- ReadByte(data, width.next);
    Ok(Parsed(Body(NullableFlag(flag.value), Plain), flag.next))
  }

  /** A default value the numeric branch decodes rather than skips: 2 bytes
      for tag 0, 4 for tags 1 and 2, 8 for tags 3 and 5. */
  predicate TypedDefault(tag: uint8, len: uint8)
  {
    || (tag == 0 && len == 2)
    || (tag == 1 && len == 4)
    || (tag == 2 && len == 4)
    || (tag == 3 && len == 8)
    || (tag == 5 && len == 8)
  }

  /** The default value of the numeric branch, read by type or skipped. */
  function NumericDefault(data: File, pos: nat, tag: uint8, len: uint8): (r: Result<nat>)
    ensures r.Ok? <==> !TypedDefault(tag, len) || pos + len <= |data|
    ensures r.Ok? ==> r.value == if pos + len <= MAX_OFFSET then pos + len else pos
  {
    if tag == 0 && len == 2 then
      var d :- ReadInt16(data, pos); Ok(d.next)
    else if tag == 1 && len == 4 then
      var d :- ReadInt32(data, pos); Ok(d.next)
    else if tag == 2 && len == 4 then
      var d :- ReadFloat32Bits(data, pos); Ok(d.next)
    else if tag == 3 && len == 8 then
      var d :- ReadFloat64Bits(data, pos); Ok(d.next)
    else if tag == 5 && len == 8 then
      var d :- ReadFloat64Bits(data, pos); Ok(d.next)
    else
      Ok(SeekCur(pos, len))
  }

  /** Every other tag (main.go:494-518): width byte, flag byte, a one-byte
      default-value length, and the default value when the flag announces it.
      Whatever sub-branch runs, the body is 3 bytes plus the default's. */
  function DecodeNumeric(data: File, pos: nat, tag: uint8): (r: Result<Parsed<Body>>)
    ensures r.Ok? <==>
              && pos + 3 <= |data|
              && (HasDefault(data[pos + 1]) && TypedDefault(tag, data[pos + 2]) ==>
                    pos + 3 + data[pos + 2] <= |data|)
    ensures r.Ok? ==> r.value.value == Body(NullableFlag(data[pos + 1]), Plain)
    ensures r.Ok? ==> r.value.next == pos + 3 + if HasDefault(data[pos + 1]) then data[pos + 2] else 0
  {
    var width :- ReadByte(data, pos);
    var flag :- ReadByte(data, width.next);
    var len :- ReadByte(data, flag.next);
    var next :- if HasDefault(flag.value) then NumericDefault(data, len.next, tag, len.value)
                else Ok(len.next);
    Ok(Parsed(Body(NullableFlag(flag.value), Plain), next))
  }

  /** The flag byte of a body of type `tag` at `pos` exists, and the field
      is nullable exactly when it is not an ObjectID and bit 0 of that byte
      is set. */
  predicate NullabilityRule(data: File, pos: nat, tag: uint8, nullable: bool)
  {
    && pos + FlagOffset(tag) < |data|
    && (nullable <==> tag != OBJECT_ID && NullableFlag(data[pos + FlagOffset(tag)]))
  }

  /** The type switch of main.go:349-519. */
  function DecodeBody(data: File, pos: nat, tag: uint8): (r: Result<Parsed<Body>>)
    ensures r.Ok? ==> NullabilityRule(data, pos, tag, r.value.value.nullable)
    ensures r.Ok? ==> (r.value.value.payload.ShapeInfo? <==> tag == SHAPE)
    ensures r.Ok? ==> (r.value.value.payload.RasterInfo? <==> tag == RASTER)
  {
    if tag == OBJECT_ID then DecodeObjectId(data, pos)
    else if tag == SHAPE then DecodeShape(data, pos)
    else if tag == STRING then DecodeString(data, pos)
    else if tag == 8 then DecodeReserved(data, pos)
    else if tag == RASTER then DecodeRaster(data, pos)
    else if tag == 10 || tag == 11 || tag == 12 then DecodeWidthAndFlag(data, pos)
    else DecodeNumeric(data, pos, tag)
  }

  /** Name, alias and type tag. */
  datatype Head = Head(name: string, alias: string, tag: uint8)

  function DecodeHead(data: File, pos: nat): (r: Result<Parsed<Head>>)
    ensures r.Ok? ==>
              && pos < |data|
              && var a := pos + 1 + 2 * data[pos] as int;
                 && a < |data|
                 && var t := a + 1 + 2 * data[a] as int;
                    && t < |data|
                    && r.value == Parsed(Head(r.value.value.name, r.value.value.alias, data[t]), t + 1)
                    && |r.value.value.name| == data[pos] && |r.value.value.alias| == data[a]
                    && WideAt(data, pos + 1, r.value.value.name)
                    && WideAt(data, a + 1, r.value.value.alias)
  {
    var name :- GetString(data, pos, -1);
    var alias :- GetString(data, name.next, -1);
    var tag :- ReadByte(data, alias.next);
    Ok(Parsed(Head(name.value, alias.value, tag.value), tag.next))
  }

  /** One field descriptor (main.go:339-519). */
  function DecodeField(data: File, pos: nat): (r: Result<Parsed<Field>>)
    ensures r.Ok? ==> DecodeHead(data, pos).Ok?
    ensures r.Ok? ==>
              var h := DecodeHead(data, pos).value;
              && r.value.value.tag == h.value.tag
              && r.value.value.name == h.value.name
              && r.value.value.alias == h.value.alias
              && NullabilityRule(data, h.next, h.value.tag, r.value.value.nullable)
  {
    var h :- DecodeHead(data, pos);
    var b :- DecodeBody(data, h.next, h.value.tag);
    Ok(Parsed(Field(h.value.name, h.value.alias, h.value.tag, b.value.nullable, b.value.payload), b.next))
  }

  /** Tags 6, 8, 10, 11 and 12 have two-byte bodies. */
  lemma FixedWidthBodies(data: File, pos: nat, tag: uint8)
    requires tag == OBJECT_ID || tag == 8 || tag == 10 || tag == 11 || tag == 12
    ensures DecodeBody(data, pos, tag).Ok? <==> pos + 2 <= |data|
    ensures DecodeBody(data, pos, tag).Ok? ==> DecodeBody(data, pos, tag).value.next == pos + 2
  {
  }

  /** A String body whose default length is below 2^63, and whose default
      value would end at or before the largest offset, occupies 5 bytes, the
      varint, and the default value when the flag announces one. */
  lemma StringBodyLength(data: File, pos: nat)
    requires DecodeString(data, pos).Ok?
    requires var len := ReadVarUint(data, pos + 5).value;
             len.value < TWO_64 / 2 && len.next + len.value <= MAX_OFFSET
    ensures var len := ReadVarUint(data, pos + 5).value;
            && pos + 5 < len.next
            && DecodeString(data, pos).value.next == len.next + if HasDefault(data[pos + 4]) then len.value else 0
  {
  }
}

=== FILE: nullmask.dfy ===
/** The per-row null mask (main.go:76-94): one bit per nullable field, least
    significant bit first, rounded up to whole bytes. `getFlags` reads the
    mask bytes into the table handle; `skipField` tests one field's bit. */
module NullMask {
  import opened Results
  import opened Cursor
  import opened Fields
  import opened Table

  /** Number of mask bytes for `n` nullable fields: the fewest whole bytes
      that hold `n` bits. */
  function FlagByteCount(n: nat): (k: nat)
    ensures 8 * k >= n
    ensures k > 0 ==> 8 * (k - 1) < n
  {
    (n + 7) / 8
  }

  /** Bytes that `getFlags` reads for `bt`. */
  function FlagBytesToRead(bt: BaseTable): nat
  {
    if bt.hasFlags then FlagByteCount(bt.nullableFields) else 0
  }

  /** `getFlags` (main.go:76-85): when the table has nullable fields, read
      one byte per started group of eight of them and APPEND the bytes to the
      handle's mask; otherwise read nothing. */
  method GetFlags(bt: BaseTable, data: File, pos: nat) returns (r: Result<Parsed<BaseTable>>)
    ensures r.Ok? <==> ReadBytes(data, pos, FlagBytesToRead(bt)).Ok?
    ensures r.Ok? ==>
              var read := ReadBytes(data, pos, FlagBytesToRead(bt)).value;
              r.value == Parsed(bt.(flags := bt.flags + read.value), read.next)
  {
    if !bt.hasFlags {
      assert bt.flags + [] == bt.flags;
      return Ok(Parsed(bt, pos));
    }
    var n := bt.nullableFields;
    var remaining: int := n;
    var flags := bt.flags;
    var p := pos;
    while remaining > 0
      invariant p >= pos && (p > pos ==> p <= |data|)
      invariant remaining == n - 8 * (p - pos) && remaining > -8
      invariant |flags| == |bt.flags| + (p - pos)
      invariant flags[..|bt.flags|] == bt.flags
      invariant forall j :: |bt.flags| <= j < |flags| ==> flags[j] == data[pos + (j - |bt.flags|)]
    {
      var b := ReadByte(data, p);
      if b.Fail? {
        return Fail(b.error);
      }
      flags := flags + [b.value.value];
      p := b.value.next;
      remaining := remaining - 8;
    }
    ghost var read := ReadBytes(data, pos, FlagByteCount(n)).value;
    assert flags == bt.flags + read.value;
    r := Ok(Parsed(bt.(flags := flags), p));
  }

  /** 2 to the power `k`. */
  function Pow2(k: nat): (r: nat)
    ensures r > 0
  {
    if k == 0 then 1 else 2 * Pow2(k - 1)
  }

  /** The low `width` bits of `b`, least significant first, obtained by
      repeated halving. */
  function ByteBits(b: nat, width: nat): (bits: seq<bool>)
    ensures |bits| == width
  {
    if width == 0 then [] else [b % 2 == 1] + ByteBits(b / 2, width - 1)
  }

  /** The mask as a bit string: field `i`'s marker is bit `i`. */
  function FlagBits(flags: Bytes): (bits: seq<bool>)
    ensures |bits| == 8 * |flags|
  {
    if |flags| == 0 then [] else ByteBits(flags[0], 8) + FlagBits(flags[1..])
  }

  /** `b` halved `k` times, rounding down: `b >> k`. */
  function Halve(b: nat, k: nat): nat
  {
    if k == 0 then b else Halve(b / 2, k - 1)
  }

  /** Halving once more halves the result. */
  lemma {:induction false} HalveStep(b: nat, k: nat)
    decreases k
    ensures Halve(b, k + 1) == Halve(b, k) / 2
  {
    if k > 0 {
      HalveStep(b / 2, k - 1);
    }
  }

  /** Dividing by 2^j and then by 2 is dividing by 2^(j+1), for the shifts a
      byte admits. */
  lemma DivPow2Step(b: nat, j: nat)
    requires j < 7
    ensures b / Pow2(j) / 2 == b / Pow2(j + 1)
  {
    if j == 0 {
      assert Pow2(0) == 1 && Pow2(1) == 2;
    } else if j == 1 {
      assert Pow2(1) == 2 && Pow2(2) == 4;
    } else if j == 2 {
      assert Pow2(2) == 4 && Pow2(3) == 8;
      assert b / 4 / 2 == b / 8;
    } else if j == 3 {
      assert Pow2(3) == 8 && Pow2(4) == 16;
      assert b / 8 / 2 == b / 16;
    } else if j == 4 {
      assert Pow2(4) == 16 && Pow2(5) == 32;
      assert b / 16 / 2 == b / 32;
    } else if j == 5 {
      assert Pow2(5) == 32 && Pow2(6) == 64;
      assert b / 32 / 2 == b / 64;
    } else {
      assert Pow2(6) == 64 && Pow2(7) == 128;
      assert b / 64 / 2 == b / 128;
    }
  }

  /** Shifting right by `k < 8` is dividing by 2^k. */
  lemma {:induction false} HalveIsDivision(b: nat, k: nat)
    requires k < 8
    decreases k
    ensures Halve(b, k) == b / Pow2(k)
  {
    if k > 0 {
      HalveIsDivision(b, k - 1);
      HalveStep(b, k - 1);
      DivPow2Step(b, k - 1);
    }
  }

  /** Bit `k` of the halving expansion is bit `k` of the number. */
  lemma {:induction false} ByteBitsIndex(b: nat, width: nat, k: nat)
    requires k < width
    decreases k
    ensures ByteBits(b, width)[k] == (Halve(b, k) % 2 == 1)
  {
    if k > 0 {
      ByteBitsIndex(b / 2, width - 1, k - 1);
    }
  }

  /** Bit `i` of the mask lives in byte `i / 8` at position `i % 8`. */
  lemma {:induction false} FlagBitsIndex(flags: Bytes, i: nat)
    requires i < 8 * |flags|
    decreases |flags|
    ensures FlagBits(flags)[i] == (flags[i / 8] as int / Pow2(i % 8) % 2 == 1)
  {
    if i < 8 {
      ByteBitsIndex(flags[0], 8, i);
      HalveIsDivision(flags[0], i);
    } else {
      FlagBitsIndex(flags[1..], i - 8);
      assert (i - 8) / 8 == i / 8 - 1 && (i - 8) % 8 == i % 8;
    }
  }

  /** `skipField` (main.go:87-94): only a nullable field of a table with a
      mask can be skipped, and then exactly when its bit is set. An index
      past the mask read so far fails. The index is a byte and passed by
      value, so the caller's index is never advanced. */
  function SkipField(bt: BaseTable, fld: Field, i: uint8): (r: Result<bool>)
    ensures !(bt.hasFlags && fld.nullable) ==> r == Ok(false)
    ensures bt.hasFlags && fld.nullable ==> (r.Ok? <==> i < |FlagBits(bt.flags)|)
    ensures r.Ok? && bt.hasFlags && fld.nullable ==> (r.value <==> FlagBits(bt.flags)[i])
  {
    if bt.hasFlags && fld.nullable then
      if i / 8 < |bt.flags| then
        FlagBitsIndex(bt.flags, i);
        Ok(bt.flags[i / 8] as int / Pow2(i % 8) % 2 == 1)
      else
        Fail(FlagIndexOutOfRange)
    else
      Ok(false)
  }

  /** Because `getFlags` appends, bytes read later never change the answer
      for a field whose bit lies in the bytes read first. */
  lemma SkipFieldIgnoresLaterBytes(bt: BaseTable, more: Bytes, fld: Field, i: uint8)
    requires i as int < 8 * |bt.flags|
    ensures SkipField(bt.(flags := bt.flags + more), fld, i) == SkipField(bt, fld, i)
  {
  }

  /** Mask byte 0b101: fields 0 and 2 are null, field 1 is not. */
  lemma SkipFieldExample(bt: BaseTable, fld: Field)
    requires bt.hasFlags && fld.nullable && bt.flags == [5]
    ensures SkipField(bt, fld, 0) == Ok(true)
    ensures SkipField(bt, fld, 1) == Ok(false)
    ensures SkipField(bt, fld, 2) == Ok(true)
    ensures SkipField(bt, fld, 8) == Fail(FlagIndexOutOfRange)
    ensures SkipField(bt, fld.(nullable := false), 0) == Ok(false)
  {
  }
}

=== FILE: results.dfy ===
/** Failure-compatible results for the table decoder.

    The decoder aborts on every malformed or short input (the Go code panics
    through `check`, `assert` and explicit `panic` calls); here each of those
    exits becomes a `Fail` carrying the kind of failure. */
module Results {

  /** Why a decode stopped. */
  datatype Error =
    | TruncatedRead(at: nat, wanted: nat)   // fewer than `wanted` bytes at offset `at`
    | InvariantViolation                    // index file: zero blocks but a nonzero feature count
    | UnrecognisedBandDataType              // band signature bytes 2..3 match no data type
    | UnrecognisedCompression               // band signature byte 1 matches no compression
    | SignatureTooShort                     // band signature indexed past its end
    | FlagIndexOutOfRange                   // nullability bit test past the flag bytes read

  datatype Result<+T> = Ok(value: T) | Fail(error: Error) {

    predicate IsFailure() {
      Fail?
    }

    function PropagateFailure<U>(): Result<U>
      requires Fail?
    {
      Fail(error)
    }

    function Extract(): T
      requires Ok?
    {
      value
    }
  }

  /** A value decoded from a byte sequence together with the cursor position
      the decode leaves behind. */
  datatype Parsed<+T> = Parsed(value: T, next: nat)
}

=== FILE: spatial_ref.dfy ===
/** The spatial-reference block of Shape (tag 7) and Raster (tag 9) field
    descriptors (main.go:365-415, 450-485).

    Every value in the block is a 64-bit float; the decoder never computes
    with them, so each is kept as its raw little-endian bit pattern. A value
    the block does not carry keeps Go's zero value, whose bit pattern is 0. */
module SpatialRef {
  import opened Results
  import opened Cursor

  /** The precision parameters shared by the `Shape` and `RasFields` records. */
  datatype Reference = Reference(
    hasZ: bool, hasM: bool,
    xOrig: nat, yOrig: nat, xyScale: nat,
    mOrig: nat, mScale: nat,
    zOrig: nat, zScale: nat,
    xyTolerance: nat, mTolerance: nat, zTolerance: nat)

  /** The reference a Raster field keeps when its magic byte is zero. */
  const NoReference := Reference(false, false, 0, 0, 0, 0, 0, 0, 0, 0, 0, 0)

  /** The geometry-kind magic byte: 5 means Z only, 7 means Z and M, any other
      value neither. Returns (hasZ, hasM). */
  function ZMFromMagic(magic: uint8): (zm: (bool, bool))
    ensures zm.0 <==> magic == 5 || magic == 7
    ensures zm.1 <==> magic == 7
  {
    if magic == 5 then (true, false)
    else if magic == 7 then (true, true)
    else (false, false)
  }

  /** Number of 8-byte values in a reference block. */
  function ReferenceWords(hasZ: bool, hasM: bool): nat
  {
    4 + (if hasM then 3 else 0) + (if hasZ then 3 else 0)
  }

  /** The 8-byte little-endian value at `p`. */
  function Word(data: File, p: nat): nat
    requires p + 8 <= |data|
  {
    LittleEndian(data[p..p + 8])
  }

  /** Bytes an optional value occupies: 8 when present, none otherwise. */
  function Width(present: bool): nat
  {
    if present then 8 else 0
  }

  /** A value read only when `present`; otherwise the zero value, no bytes. */
  function ReadOptional(data: File, pos: nat, present: bool): (r: Result<Parsed<nat>>)
    ensures r.Ok? <==> pos + Width(present) <= |data| || !present
    ensures r.Ok? ==> r.value == Parsed(OptionalWord(data, pos, present), pos + Width(present))
  {
    if present then ReadFloat64Bits(data, pos) else Ok(Parsed(0, pos))
  }

  /** The 8-byte value at `pos` when `present`, else zero. */
  function OptionalWord(data: File, pos: nat, present: bool): nat
    requires present ==> pos + 8 <= |data|
  {
    if present then Word(data, pos) else 0
  }

  /** An origin and a scale, both present or both absent. */
  function ReadPair(data: File, pos: nat, present: bool): (r: Result<Parsed<(nat, nat)>>)
    ensures r.Ok? <==> pos + 2 * Width(present) <= |data| || !present
    ensures r.Ok? ==> r.value.next == pos + 2 * Width(present)
    ensures r.Ok? ==> r.value.value == (OptionalWord(data, pos, present), OptionalWord(data, pos + Width(present), present))
  {
    var origin :- ReadOptional(data, pos, present);
    var scale :- ReadOptional(data, origin.next, present);
    Ok(Parsed((origin.value, scale.value), scale.next))
  }

  /** Reads the block in its on-disk order: X/Y origin and scale, M origin and
      scale, Z origin and scale, X/Y tolerance, M tolerance, Z tolerance, where
      the M values are present only with `hasM` and the Z values only with
      `hasZ`. */
  function ReadReference(data: File, pos: nat, hasZ: bool, hasM: bool): (r: Result<Parsed<Reference>>)
    ensures r.Ok? <==> pos + 8 * ReferenceWords(hasZ, hasM) <= |data|
    ensures r.Ok? ==> r.value.next == pos + 8 * ReferenceWords(hasZ, hasM)
    ensures r.Ok? ==> ReferenceLayout(data, pos, r.value.value)
    ensures r.Ok? ==> r.value.value.hasZ == hasZ && r.value.value.hasM == hasM
  {
    var xy :- ReadXY(data, pos);
    var mPair :- ReadPair(data, xy.next, hasM);
    var zPair :- ReadPair(data, mPair.next, hasZ);
    var tol :- ReadTolerances(data, zPair.next, hasZ, hasM);
    Ok(Parsed(Reference(hasZ, hasM, xy.value.0, xy.value.1, xy.value.2, mPair.value.0, mPair.value.1,
                        zPair.value.0, zPair.value.1, tol.value.0, tol.value.1, tol.value.2), tol.next))
  }

  /** The X origin, Y origin and X/Y scale that open the block. */
  function ReadXY(data: File, pos: nat): (r: Result<Parsed<(nat, nat, nat)>>)
    ensures r.Ok? <==> pos + 24 <= |data|
    ensures r.Ok? ==> r.value == Parsed((Word(data, pos), Word(data, pos + 8), Word(data, pos + 16)), pos + 24)
  {
    var xo :- ReadFloat64Bits(data, pos);
    var yo :- ReadFloat64Bits(data, xo.next);
    var xys :- ReadFloat64Bits(data, yo.next);
    Ok(Parsed((xo.value, yo.value, xys.value), xys.next))
  }

  /** The X/Y tolerance, then the M and Z tolerances when present. */
  function ReadTolerances(data: File, pos: nat, hasZ: bool, hasM: bool): (r: Result<Parsed<(nat, nat, nat)>>)
    ensures r.Ok? <==> pos + 8 + Width(hasM) + Width(hasZ) <= |data|
    ensures r.Ok? ==>
              r.value == Parsed((Word(data, pos), OptionalWord(data, pos + 8, hasM),
                                 OptionalWord(data, pos + 8 + Width(hasM), hasZ)),
                                pos + 8 + Width(hasM) + Width(hasZ))
  {
    var xyt :- ReadFloat64Bits(data, pos);
    var mt :- ReadOptional(data, xyt.next, hasM);
    var zt :- ReadOptional(data, mt.next, hasZ);
    Ok(Parsed((xyt.value, mt.value, zt.value), zt.next))
  }

  /** Where each value of a reference block sits: each follows the previous
      one in the order above, an absent value takes no bytes and is zero. */
  ghost predicate ReferenceLayout(data: File, pos: nat, ref: Reference)
  {
    var m, z := Width(ref.hasM), Width(ref.hasZ);
    var mOrigAt := pos + 24;
    var zOrigAt := mOrigAt + 2 * m;
    var xyTolAt := zOrigAt + 2 * z;
    var mTolAt := xyTolAt + 8;
    var zTolAt := mTolAt + m;
    && zTolAt + z <= |data|
    && ref.xOrig == Word(data, pos)
    && ref.yOrig == Word(data, pos + 8)
    && ref.xyScale == Word(data, pos + 16)
    && ref.mOrig == OptionalWord(data, mOrigAt, ref.hasM)
    && ref.mScale == OptionalWord(data, mOrigAt + m, ref.hasM)
    && ref.zOrig == OptionalWord(data, zOrigAt, ref.hasZ)
    && ref.zScale == OptionalWord(data, zOrigAt + z, ref.hasZ)
    && ref.xyTolerance == Word(data, xyTolAt)
    && ref.mTolerance == OptionalWord(data, mTolAt, ref.hasM)
    && ref.zTolerance == OptionalWord(data, zTolAt, ref.hasZ)
  }

  /** The bounding box a Shape field carries after its reference block. */
  datatype Extent = Extent(xMin: nat, yMin: nat, xMax: nat, yMax: nat)

  /** The extent's minimum x, minimum y, maximum x and maximum y are the
      four words at `pos`, in that order. */
  predicate ExtentLayout(data: File, pos: nat, e: Extent)
    requires pos + 32 <= |data|
  {
    e == Extent(Word(data, pos), Word(data, pos + 8), Word(data, pos + 16), Word(data, pos + 24))
  }

  function ReadExtent(data: File, pos: nat): (r: Result<Parsed<Extent>>)
    ensures r.Ok? <==> pos + 32 <= |data|
    ensures r.Ok? ==> r.value.next == pos + 32
    ensures r.Ok? ==> ExtentLayout(data, pos, r.value.value)
  {
    var x0 :- ReadFloat64Bits(data, pos);
    var y0 :- ReadFloat64Bits(data, x0.next);
    var x1 :- ReadFloat64Bits(data, y0.next);
    var y1 :- ReadFloat64Bits(data, x1.next);
    Ok(Parsed(Extent(x0.value, y0.value, x1.value, y1.value), y1.next))
  }

  // ---------------------------------------------------------------------------
  // The trailing datum loop of a Shape field (main.go:403-415). Its datum
  // values are read and dropped, so only their 8 bytes matter here.

  /** The 5-byte marker the loop looks for: 0, then a count 1, 2 or 3, then
      three zero bytes. */
  predicate Terminator(data: File, t: nat)
  {
    && t + 5 <= |data|
    && data[t] == 0 && 1 <= data[t + 1] <= 3
    && data[t + 2] == 0 && data[t + 3] == 0 && data[t + 4] == 0
  }

  /** The marker test at the `j`-th 8-byte step after `pos`. */
  predicate TerminatorAt(data: File, pos: nat, j: nat)
  {
    Terminator(data, pos + 8 * j)
  }

  /** The loop as the source writes it. A 5-byte window that is not the
      marker is rewound and one datum read; on the marker, the inner `for`
      reads one datum and its `break` leaves only that inner loop, so the
      outer loop goes on until a read fails. As written the loop therefore
      never ends without a short read: decoding a Shape field always fails,
      on every input. */
  function ShapeTrailerAsWritten(data: File, pos: nat): (r: Result<nat>)
    decreases |data| - pos
    ensures r.Fail? && r.error.TruncatedRead?
  {
    var w :- ReadBytes(data, pos, 5);
    if !Terminator(data, pos) then
      var d :- ReadBytes(data, SeekCur(w.next, -5), 8);
      ShapeTrailerAsWritten(data, d.next)
    else
      var d :- ReadBytes(data, w.next, 8);
      ShapeTrailerAsWritten(data, d.next)
  }

  /** `count` datum values in a row. */
  function ReadDatums(data: File, pos: nat, count: nat): (r: Result<nat>)
    ensures r.Ok? <==> pos + 8 * count <= |data| || count == 0
    ensures r.Ok? ==> r.value == pos + 8 * count
    decreases count
  {
    if count == 0 then Ok(pos)
    else
      var d :- ReadBytes(data, pos, 8);
      ReadDatums(data, d.next, count - 1)
  }

  /** The loop with the exit its inner `break` was evidently meant to take:
      plain datum values until the marker, then the marker's count of datum
      values, and the loop ends. The value returned is the number of plain
      datum values before the marker. */
  function ShapeTrailer(data: File, pos: nat): (r: Result<Parsed<nat>>)
    decreases |data| - pos
    ensures r.Ok? ==> TerminatorAt(data, pos, r.value.value)
    ensures r.Ok? ==> forall j :: 0 <= j < r.value.value ==> !TerminatorAt(data, pos, j)
    ensures r.Ok? ==> var t := pos + 8 * r.value.value;
                      r.value.next == t + 5 + 8 * data[t + 1] <= |data|
  {
    var w :- ReadBytes(data, pos, 5);
    if !Terminator(data, pos) then
      assert SeekCur(w.next, -5) == pos;
      var d :- ReadBytes(data, SeekCur(w.next, -5), 8);
      // The window was rewound, so the datum ends 8 bytes after `pos`.
      assert d.next == pos + 8;
      var rest :- ShapeTrailer(data, pos + 8);
      MarkerShift(data, pos, pos + 8, rest.value, rest.next);
      Ok(Parsed(rest.value + 1, rest.next))
    else
      var end :- ReadDatums(data, w.next, data[pos + 1]);
      Ok(Parsed(0, end))
  }

  /** A marker found `n` steps after `pos + 8`, with none before it, is the
      first marker `n + 1` steps after `pos` when `pos` holds none. */
  lemma MarkerShift(data: File, pos: nat, p: nat, n: nat, next: nat)
    requires p == pos + 8 && !Terminator(data, pos)
    requires TerminatorAt(data, p, n)
    requires forall j :: 0 <= j < n ==> !TerminatorAt(data, p, j)
    requires var t := p + 8 * n;
             next == t + 5 + 8 * data[t + 1] <= |data|
    ensures TerminatorAt(data, pos, n + 1)
    ensures forall j :: 0 <= j < n + 1 ==> !TerminatorAt(data, pos, j)
    ensures var t := pos + 8 * (n + 1);
            next == t + 5 + 8 * data[t + 1] <= |data|
  {
    assert pos + 8 * (n + 1) == p + 8 * n;
    forall j | 0 <= j < n + 1
      ensures !TerminatorAt(data, pos, j)
    {
      if j > 0 {
        assert pos + 8 * j == p + 8 * (j - 1);
        assert !TerminatorAt(data, p, j - 1);
      }
    }
  }

  /** A window that is not the marker costs one 8-byte datum value. */
  lemma ShapeTrailerSkip(data: File, pos: nat, k: nat, e: nat)
    requires pos + 8 <= |data| && !Terminator(data, pos)
    requires ShapeTrailer(data, pos + 8) == Ok(Parsed(k, e))
    ensures ShapeTrailer(data, pos) == Ok(Parsed(k + 1, e))
  {
    assert ReadBytes(data, pos, 5) == Ok(Parsed(data[pos..pos + 5], pos + 5));
    assert SeekCur(pos + 5, -5) == pos;
    assert ReadBytes(data, pos, 8) == Ok(Parsed(data[pos..pos + 8], pos + 8));
  }

  /** The marker ends the loop after its own count of datum values. */
  lemma ShapeTrailerStop(data: File, pos: nat, e: nat)
    requires Terminator(data, pos) && e == pos + 5 + 8 * data[pos + 1] <= |data|
    ensures ShapeTrailer(data, pos) == Ok(Parsed(0, e))
  {
  }

  /** Moving the loop start one datum on keeps the "no marker yet" facts. */
  lemma NoMarkerShift(data: File, pos: nat, p: nat, k: nat)
    requires p == pos + 8
    requires 0 < k && forall j :: 0 <= j < k ==> !TerminatorAt(data, pos, j)
    ensures !Terminator(data, pos)
    ensures forall j :: 0 <= j < k - 1 ==> !TerminatorAt(data, p, j)
  {
    assert !TerminatorAt(data, pos, 0);
    forall j | 0 <= j < k - 1
      ensures !TerminatorAt(data, p, j)
    {
      assert !TerminatorAt(data, pos, j + 1);
    }
  }

  /** Conversely, the corrected loop stops at the first marker on the 8-byte
      grid, provided the datum values before it and after it are all there;
      `e` is the end of the marker's own datum values. */
  lemma {:induction false} ShapeTrailerStopsAtFirstMarker(data: File, pos: nat, k: nat, e: nat)
    requires forall j :: 0 <= j < k ==> !TerminatorAt(data, pos, j)
    requires TerminatorAt(data, pos, k)
    requires e == pos + 8 * k + 5 + 8 * data[pos + 8 * k + 1] <= |data|
    decreases k, 1
    ensures ShapeTrailer(data, pos) == Ok(Parsed(k, e))
  {
    if k == 0 {
      assert pos + 8 * k == pos;
      ShapeTrailerStop(data, pos, e);
    } else {
      ShapeTrailerSkipsToMarker(data, pos, k, e);
    }
  }

  /** The inductive step: a first window that is not the marker is skipped
      and the search goes on one datum later. */
  lemma {:induction false} ShapeTrailerSkipsToMarker(data: File, pos: nat, k: nat, e: nat)
    requires 0 < k
    requires forall j :: 0 <= j < k ==> !TerminatorAt(data, pos, j)
    requires TerminatorAt(data, pos, k)
    requires e == pos + 8 * k + 5 + 8 * data[pos + 8 * k + 1] <= |data|
    decreases k, 0
    ensures ShapeTrailer(data, pos) == Ok(Parsed(k, e))
  {
    var p := pos + 8;
    NoMarkerShift(data, pos, p, k);
    assert p + 8 * (k - 1) == pos + 8 * k;
    assert TerminatorAt(data, p, k - 1) by {
      assert TerminatorAt(data, pos, k);
    }
    ShapeTrailerStopsAtFirstMarker(data, p, k - 1, e);
    assert p <= pos + 8 * k < e <= |data|;
    ShapeTrailerSkip(data, pos, k - 1, e);
  }

  /** A concrete trailer: the marker [0, 1, 0, 0, 0] followed by one datum and
      then more bytes. The corrected loop stops after 13 bytes; the loop as
      written reads on and fails. */
  lemma ShapeTrailerExample()
    ensures var data := [0, 1, 0, 0, 0] + seq(8, _ => 0x41) + [0x99, 0x99, 0x99];
            && ShapeTrailer(data, 0) == Ok(Parsed(0, 13))
            && ShapeTrailerAsWritten(data, 0).Fail?
  {
    var data: File := [0, 1, 0, 0, 0] + seq(8, _ => 0x41) + [0x99, 0x99, 0x99];
    assert TerminatorAt(data, 0, 0);
    ShapeTrailerStopsAtFirstMarker(data, 0, 0, 13);
  }
}

=== FILE: table.dfy ===
/** The table handle built by `newBaseTable` (main.go:295-543): the index
    file's header words, the table file's field-section header, and the field
    descriptors, with the nullable-field count derived from them.

    The two files are given as byte sequences; opening, closing and the paths
    they come from are outside the model. */
module Table {
  import opened Results
  import opened Cursor
  import opened Fields

  /** `BaseTable` without its paths and file handles. */
  datatype BaseTable = BaseTable(
    nFeaturesX: nat,
    sizeTablxOffsets: nat,
    fields: seq<Field>,
    hasFlags: bool,
    nullableFields: nat,
    flags: Bytes)

  /** The 32-bit little-endian word at `p`. */
  function U32At(data: File, p: nat): nat
    requires p + 4 <= |data|
  {
    LittleEndian(data[p..p + 4])
  }

  datatype IndexHeader = IndexHeader(blocks: nat, features: nat, offsetSize: nat)

  /** The `.gdbtablx` header (main.go:302-311): from offset 4, the block
      count, the feature count and the per-row offset width. A file with no
      blocks must report no features. */
  function ReadIndexHeader(tablx: File): (r: Result<IndexHeader>)
    ensures r.Ok? <==> 16 <= |tablx| && !(U32At(tablx, 4) == 0 && U32At(tablx, 8) != 0)
    ensures r.Ok? ==> r.value == IndexHeader(U32At(tablx, 4), U32At(tablx, 8), U32At(tablx, 12))
    ensures 12 <= |tablx| && U32At(tablx, 4) == 0 && U32At(tablx, 8) != 0 ==> r == Fail(InvariantViolation)
  {
    var blocks :- ReadU32(tablx, 4);
    var features :- ReadU32(tablx, blocks.next);
    if blocks.value == 0 && features.value != 0 then
      Fail(InvariantViolation)
    else
      var size :- ReadU32(tablx, features.next);
      Ok(IndexHeader(blocks.value, features.value, size.value))
  }

  /** The `.gdbtable` header (main.go:317-331): the feature count at offset 4
      (read, not kept), the header offset at 32, and at that offset the header
      length, 4 skipped bytes, the geometry type, 3 skipped bytes and the
      field count as a low byte and a high byte. Returns the field count and
      the position of the first descriptor. */
  function ReadFieldCount(table: File): (r: Result<Parsed<nat>>)
    ensures r.Ok? <==> 36 <= |table| && U32At(table, 32) + 14 <= |table|
    ensures r.Ok? ==>
              var h := U32At(table, 32);
              r.value == Parsed(table[h + 12] as int + 256 * table[h + 13] as int, h + 14)
  {
    var nFeatures :- ReadU32(table, 4);
    var headerOff :- ReadU32(table, 32);
    var headerLen :- ReadU32(table, headerOff.value);
    var geomType :- ReadByte(table, SeekCur(headerLen.next, 4));
    var lo :- ReadByte(table, SeekCur(geomType.next, 3));
    var hi :- ReadByte(table, lo.next);
    Ok(Parsed(lo.value as int + 256 * hi.value as int, hi.next))
  }

  /** `n` consecutive decodes by `step`, each starting where the previous
      one stopped; fails with the first failing decode. */
  function Repeat<T>(step: (File, nat) -> Result<Parsed<T>>, data: File, pos: nat, n: nat): (r: Result<Parsed<seq<T>>>)
    ensures r.Ok? ==> |r.value.value| == n
  {
    if n == 0 then Ok(Parsed([], pos))
    else
      var prev :- Repeat(step, data, pos, n - 1);
      var x :- step(data, prev.next);
      Ok(Parsed(prev.value + [x.value], x.next))
  }

  /** Once a decode fails, every longer run of decodes fails too. */
  lemma {:induction false} RepeatFailurePersists<T>(step: (File, nat) -> Result<Parsed<T>>, data: File, pos: nat, i: nat, n: nat)
    requires i <= n && Repeat(step, data, pos, i).Fail?
    decreases n
    ensures Repeat(step, data, pos, n).Fail?
  {
    if i < n {
      RepeatFailurePersists(step, data, pos, i, n - 1);
    }
  }

  /** One more decode extends a successful run, or ends it in failure. */
  lemma RepeatStep<T>(step: (File, nat) -> Result<Parsed<T>>, data: File, pos: nat, i: nat, xs: seq<T>, p: nat)
    requires Repeat(step, data, pos, i) == Ok(Parsed(xs, p))
    ensures step(data, p).Fail? ==> Repeat(step, data, pos, i + 1).Fail?
    ensures step(data, p).Ok? ==>
              Repeat(step, data, pos, i + 1) == Ok(Parsed(xs + [step(data, p).value.value], step(data, p).value.next))
  {
  }

  /** A run of decodes that succeeds is a prefix-closed chain: every shorter
      run succeeds with the corresponding prefix. */
  lemma {:induction false} RepeatPrefix<T>(step: (File, nat) -> Result<Parsed<T>>, data: File, pos: nat, i: nat, n: nat)
    requires i <= n && Repeat(step, data, pos, n).Ok?
    decreases n
    ensures Repeat(step, data, pos, i).Ok?
    ensures Repeat(step, data, pos, i).value.value == Repeat(step, data, pos, n).value.value[..i]
  {
    if i < n {
      RepeatPrefix(step, data, pos, i, n - 1);
      var prev := Repeat(step, data, pos, n - 1).value.value;
      assert Repeat(step, data, pos, n).value.value[..n - 1] == prev;
    } else {
      assert Repeat(step, data, pos, n).value.value[..n] == Repeat(step, data, pos, n).value.value;
    }
  }

  /** The fields the table lists: all but the ObjectID ones, in order. */
  function Listed(fs: seq<Field>): seq<Field>
  {
    if |fs| == 0 then []
    else Listed(fs[..|fs| - 1]) + (if fs[|fs| - 1].tag != OBJECT_ID then [fs[|fs| - 1]] else [])
  }

  /** Number of nullable fields. */
  function CountNullable(fs: seq<Field>): nat
  {
    if |fs| == 0 then 0
    else CountNullable(fs[..|fs| - 1]) + (if fs[|fs| - 1].nullable then 1 else 0)
  }

  /** Listing keeps exactly the non-ObjectID fields, in their order. */
  lemma {:induction false} ListedIsFilter(fs: seq<Field>)
    ensures forall f :: f in Listed(fs) ==> f in fs && f.tag != OBJECT_ID
    ensures forall f :: f in fs && f.tag != OBJECT_ID ==> f in Listed(fs)
  {
    if |fs| > 0 {
      var init := fs[..|fs| - 1];
      ListedIsFilter(init);
      assert fs == init + [fs[|fs| - 1]];
    }
  }

  /** When no ObjectID field is nullable, dropping them keeps the count. */
  lemma {:induction false} CountNullableListed(fs: seq<Field>)
    requires forall j :: 0 <= j < |fs| && fs[j].tag == OBJECT_ID ==> !fs[j].nullable
    ensures CountNullable(Listed(fs)) == CountNullable(fs)
  {
    if |fs| > 0 {
      var init := fs[..|fs| - 1];
      var last := fs[|fs| - 1];
      CountNullableListed(init);
      CountNullableAppend(Listed(init), if last.tag != OBJECT_ID then [last] else []);
    }
  }

  lemma {:induction false} CountNullableAppend(a: seq<Field>, b: seq<Field>)
    requires |b| <= 1
    ensures CountNullable(a + b) == CountNullable(a) + CountNullable(b)
  {
    if |b| == 1 {
      assert (a + b)[..|a + b| - 1] == a;
    } else {
      assert a + b == a;
    }
  }

  lemma {:induction false} ListedAppend(fs: seq<Field>, f: Field)
    ensures Listed(fs + [f]) == Listed(fs) + (if f.tag != OBJECT_ID then [f] else [])
  {
    assert (fs + [f])[..|fs + [f]| - 1] == fs;
  }

  /** A decoder that never yields a nullable ObjectID. */
  ghost predicate ObjectIdsNotNullable(step: (File, nat) -> Result<Parsed<Field>>, data: File)
  {
    forall p :: step(data, p).Ok? && step(data, p).value.value.tag == OBJECT_ID ==> !step(data, p).value.value.nullable
  }

  /** The descriptor decoder never yields a nullable ObjectID. */
  lemma DecodeFieldObjectIds(data: File)
    ensures ObjectIdsNotNullable(DecodeField, data)
  {
    forall p | DecodeField(data, p).Ok? && DecodeField(data, p).value.value.tag == OBJECT_ID
      ensures !DecodeField(data, p).value.value.nullable
    {
    }
  }

  /** What the descriptor loop keeps: the listed fields, the nullable count
      and whether it is positive. */
  datatype Scan = Scan(fields: seq<Field>, nullableFields: nat, hasFlags: bool)

  /** The descriptor loop of `newBaseTable` (main.go:337-529), for any
      decoder that never yields a nullable ObjectID: `n` descriptors from
      `start`, keeping the non-ObjectID ones and counting the nullable ones. */
  method ScanFields(step: (File, nat) -> Result<Parsed<Field>>, data: File, start: nat, n: nat)
    returns (r: Result<Scan>)
    requires ObjectIdsNotNullable(step, data)
    ensures r.Ok? <==> Repeat(step, data, start, n).Ok?
    ensures r.Ok? ==>
              var all := Repeat(step, data, start, n).value.value;
              && r.value.fields == Listed(all)
              && r.value.nullableFields == CountNullable(all)
    ensures r.Ok? ==> r.value.nullableFields == CountNullable(r.value.fields)
    ensures r.Ok? ==> (r.value.hasFlags <==> r.value.nullableFields > 0)
  {
    var pos := start;
    var hasFlags := false;
    var nullableFields := 0;
    var flds: seq<Field> := [];
    ghost var all: seq<Field> := [];
    var i := 0;
    while i < n
      invariant 0 <= i <= n
      invariant Repeat(step, data, start, i) == Ok(Parsed(all, pos))
      invariant flds == Listed(all)
      invariant nullableFields == CountNullable(all)
      invariant hasFlags <==> nullableFields > 0
      invariant forall j :: 0 <= j < |all| && all[j].tag == OBJECT_ID ==> !all[j].nullable
    {
      var next := step(data, pos);
      RepeatStep(step, data, start, i, all, pos);
      if next.Fail? {
        RepeatFailurePersists(step, data, start, i + 1, n);
        return Fail(next.error);
      }
      var fld := next.value.value;
      if fld.nullable {
        hasFlags := true;
        nullableFields := nullableFields + 1;
      }
      if fld.tag != OBJECT_ID {
        flds := flds + [fld];
      }
      ListedAppend(all, fld);
      assert (all + [fld])[..|all + [fld]| - 1] == all;
      all := all + [fld];
      pos := next.value.next;
      i := i + 1;
    }
    CountNullableListed(all);
    r := Ok(Scan(flds, nullableFields, hasFlags));
  }

  /** `newBaseTable` (main.go:295-543): the index header, the field count,
      then one descriptor per declared field, keeping the non-ObjectID ones
      and counting the nullable ones. */
  method NewBaseTable(tablx: File, table: File) returns (r: Result<BaseTable>)
    ensures r.Ok? <==>
              && ReadIndexHeader(tablx).Ok?
              && ReadFieldCount(table).Ok?
              && Repeat(DecodeField, table, ReadFieldCount(table).value.next, ReadFieldCount(table).value.value).Ok?
    ensures r.Ok? ==>
              var all := Repeat(DecodeField, table, ReadFieldCount(table).value.next,
                                      ReadFieldCount(table).value.value).value.value;
              && r.value.fields == Listed(all)
              && r.value.nullableFields == CountNullable(all)
    ensures r.Ok? ==> r.value.nullableFields == CountNullable(r.value.fields)
    ensures r.Ok? ==> (r.value.hasFlags <==> r.value.nullableFields > 0)
    ensures r.Ok? ==> forall f :: f in r.value.fields ==> f.tag != OBJECT_ID
    ensures r.Ok? ==> r.value.flags == []
    ensures r.Ok? ==> r.value.nFeaturesX == ReadIndexHeader(tablx).value.features
                      && r.value.sizeTablxOffsets == ReadIndexHeader(tablx).value.offsetSize
  {
    var header := ReadIndexHeader(tablx);
    if header.Fail? {
      return Fail(header.error);
    }
    var count := ReadFieldCount(table);
    if count.Fail? {
      return Fail(count.error);
    }
    DecodeFieldObjectIds(table);
    var scan := ScanFields(DecodeField, table, count.value.next, count.value.value);
    if scan.Fail? {
      return Fail(scan.error);
    }
    var all := Repeat(DecodeField, table, count.value.next, count.value.value).value.value;
    ListedIsFilter(all);
    r := Ok(BaseTable(header.value.features, header.value.offsetSize, scan.value.fields,
                      scan.value.hasFlags, scan.value.nullableFields, []));
  }
}
